=== FILE: README.md ===
# Chessbrah episode guide — a Dafny model of the opening-book core

The episode guide is a web page for chess opening videos. The user plays
moves on a board and the page lists the videos of games that reached the
same position in a chosen series. It also draws an arrow for each
continuation, shaded by how many of those games played it. The data
behind it is an *opening book*: one move tree per colour the streamer
played, keyed by UCI move strings, with the set of game ids through each
node. A Python pipeline builds that book from the streamer's games and the
video screenshots.

This project models the core of both sides as pure Dafny functions and
methods over immutable datatypes, and proves what each promises:

- `Book` — the loaded book: lists become sets, "Any Series" is synthesised
  from the game table, and the series selection is restored.
- `Resolver` — walking a colour's tree along a list of UCI moves.
- `Moves` — the UCI spelling of the history, the move-list text and the
  move-list rows.
- `History` — the move history and its cursor (`moveHistory`,
  `currentPosition`), the navigation actions and the navigation buttons.
- `Aggregate` — the game list of a position: direct games, then games
  reaching the same position by transposition, each at most once, sorted
  on two keys.
- `Arrows` — the arrow opacities.
- `Divergence` — where a loaded game leaves the book, and where `loadPGN`
  puts the cursor.
- `Share` — the move string in shared links, and restoring a session from
  a link.
- `Builder` — the book builder: the corpus-wide position counter, the
  TTL rule that truncates each game's path, and the insertion of paths
  into the trees.
- `Ingest` — the pure helpers of the pipeline: the ids read from file
  names, the last-four-digits matching, bounding boxes, the colour and
  Elo logic, and the "A vs B" label.
- `Options`, `Sets`, `Text`, `Decimal` — `Option`, picking an element of
  a set, string splitting and joining, and decimal text (`str`,
  `String`, `parseInt`).

Chess itself is not modelled. A move is a record with the fields the
page reads. The chess library that checks legality and replays moves is
a parameter (`Share.Oracle`). Positions are opaque FEN strings.

## Model

| member | source | states |
|---|---|---|
| Book.Convert | front_end/script.js:106-121 | converting a tree keeps exactly the same moves at every node, and a node's game set holds exactly the ids of its `game_ids` list (none when the list is absent) |
| Book.SetsOf | front_end/script.js:87-89 | every series list becomes a set with the same members, under the same name |
| Book.Load | front_end/script.js:86-121 | loading keeps the stored series names plus "Any Series"; "Any Series" is the parsed game-table keys, replacing a stored series of that name; other series keep their members; both trees are converted |
| Book.AnySeriesIsGameIds | front_end/script.js:91-96 | when the game table's keys are the decimal spellings of a set of ids, "Any Series" is exactly that set |
| Book.ParsedCanonicalKeys | front_end/script.js:93-95 | `parseInt` of every canonical key gives back exactly the set of ids the keys spell |
| Book.LoadWellFormed | front_end/script.js:86-96 | with canonical keys and series that only name stored games, every id of every loaded series, "Any Series" included, has a game-table row |
| Book.ChooseSeries | front_end/script.js:181-187 | a requested series is taken exactly when it is non-empty and exists; otherwise the current one stays, so a valid selection stays valid |
| Book.InitialSelectionExists | front_end/script.js:181-187 | the series selected after loading always exists in the loaded book |
| Decimal.NatToString | data_collection/make_book.py:49 | the decimal spelling of a natural number is all digits, has no leading zero, and reads back as the number |
| Decimal.IntToString | data_collection/make_book.py:49 | `str` of an id is never empty, and starts with a digit exactly when the id is non-negative; Decimal.ParseIntToString reads it back |
| Decimal.ParseInt | front_end/script.js:94 | `parseInt` gives NaN (None) exactly when no digit follows the optional sign |
| Decimal.ParseIntToString | front_end/script.js:94 | `parseInt` reads back every integer that `str` wrote |
| Decimal.IntToStringInjective | data_collection/make_book.py:49 | distinct game ids get distinct game-table keys |
| Resolver.Resolve | front_end/script.js:357-368 | the empty move list resolves to the root, and a first move that is not a child gives null |
| Resolver.ResolveSnoc | front_end/script.js:360-366 | resolving one more move is taking that child of the previous node, and null when it is missing or the walk already failed |
| Resolver.ResolveAppend | front_end/script.js:357-368 | resolving `p + q` is resolving `q` from the node `p` reaches |
| Resolver.ResolveNonePersists | front_end/script.js:362-363 | once a prefix fails to resolve, every extension fails |
| Resolver.ResolveNoneIff | front_end/script.js:357-368 | the result is null exactly when some move is not a child of the node the earlier moves reach |
| Resolver.ResolveLoop | front_end/script.js:357-368 | the loop in `getNodeAtCurrentPosition` computes the resolved node |
| Moves.Uci | front_end/script.js:883-891 | a UCI string is the origin, then the target, then the lower-cased promotion letter if there is one |
| Moves.UciMoves | front_end/script.js:883-891 | `getUciMoves` has exactly as many entries as `slice(0, currentPosition + 1)` keeps, and entry `i` is the UCI of move `i` |
| Moves.UciMovesAtCursor | front_end/script.js:883-891 | for a valid cursor the list has `currentPosition + 1` entries and ignores the moves after the cursor |
| Moves.MoveTextOpening | front_end/src/script.js:273-287 | the text starts with an upper-case letter exactly for a piece move; a pawn move starts with a file letter |
| Moves.MoveTextCapture | front_end/src/script.js:278-284 | the text contains 'x' exactly when the move captures |
| Moves.MoveTextTarget | front_end/src/script.js:273-292 | the piece letter and capture mark take one character each (two for a pawn's capture), then come the target square and '=' with the upper-case promotion piece |
| Moves.MoveTextCheckMark | front_end/src/script.js:294-299 | the text ends in '+' exactly when the SAN has '+', and in '#' exactly when the SAN has '#' but no '+' |
| Moves.MoveText | front_end/src/script.js:270-299 | the text of a well-formed move has between two and seven characters; its layout is stated by the four Moves.MoveText lemmas |
| Moves.Rows | front_end/src/script.js:250-262 | every even index opens a new row numbered `index / 2 + 1`; move `i` is cell `i % 2` of row `i / 2`; only the last row can have one cell |
| Moves.MoveList | front_end/src/script.js:243-309 | the move list has one numbered row per pair of moves, and move `i` is shown as its own cell |
| Moves.ActiveCellIsCursor | front_end/src/script.js:266-268 | exactly the cell at the cursor is marked active, and every cell carries its own index |
| History.Append | front_end/src/script.js:108-111 | pushing a move keeps the earlier moves, adds this one at the end, and puts the cursor on it |
| History.Truncate | front_end/src/script.js:86-90 | truncation keeps exactly the moves up to the cursor and leaves the cursor where it is |
| History.PlayMove | front_end/src/script.js:86-93 | playing a move drops the moves after the cursor, appends the new one, and moves the cursor onto it |
| History.PromoteAsWritten | front_end/src/script.js:136-160 | as written, a promotion first drops the moves after the cursor, then stores whatever the library returned, `null` included, and puts the cursor on that entry |
| History.Promote | front_end/src/script.js:136-160 | the corrected promotion: an illegal choice leaves the history and cursor unchanged; a legal one drops the later moves, appends the move and puts the cursor on it |
| History.PromoteAgreesOnLegalMoves | front_end/src/script.js:136-160 | on a legal promotion the source's history and the corrected one hold the same moves and cursor |
| History.IllegalPromotionLosesMoves | front_end/src/script.js:136-160 | as written, an illegal promotion from behind the last move drops the later moves and leaves the cursor on a `null` entry, where the corrected version changes nothing |
| History.GoToMove | front_end/src/script.js:351-366 | the cursor moves to `index` exactly when it is a played move, and nothing else changes |
| History.GoToStart | front_end/src/script.js:383-391 | going to the start keeps the history and puts the cursor at -1 |
| History.GoToPreviousAsWritten | front_end/src/script.js:394-398 | as written, the back action steps back one move from any move after the first, and does nothing on the first move or at the start |
| History.GoToPrevious | front_end/src/script.js:394-398 | the corrected action: the cursor steps back by one whenever it is not at the start |
| History.GoToNext | front_end/src/script.js:401-405 | the cursor steps forward by one whenever it is not on the last move |
| History.GoToEnd | front_end/src/script.js:408-412 | a non-empty history puts the cursor on its last move |
| History.StartNewGame | front_end/src/script.js:415-425 | a new game has an empty history and the cursor at the start |
| History.Buttons | front_end/src/script.js:428-433 | the start and back buttons are disabled together, as are the forward and end buttons; an empty history disables all of them; otherwise back is disabled exactly at the start and forward exactly on the last move |
| History.ForwardBackAsWrittenFromStart | front_end/src/script.js:394-405 | as written, stepping forward from the start and back again leaves the cursor on the first move, where the corrected back action returns to the start |
| History.ButtonsMatchActions | front_end/src/script.js:428-433 | with the corrected back action (History.GoToPrevious), each navigation button is disabled exactly when its action would change nothing; the source's own back action breaks this on the first move (History.PreviousAsWrittenStuckOnFirstMove) |
| History.PreviousNextInverse | front_end/src/script.js:394-405 | with the corrected back action (History.GoToPrevious), stepping forward then back, or back then forward, returns to the same cursor whenever the first button is enabled; as written, forward from the start and back again ends on the first move |
| History.OperationsKeepValid | front_end/src/script.js:86-433 | every action keeps the cursor between -1 and the last index |
| History.PreviousAsWrittenStuckOnFirstMove | front_end/src/script.js:394-398 | on the first move the back button is enabled, yet the action as written leaves the cursor there |
| Aggregate.PseudoFenOfFields | front_end/script.js:409 | a FEN made of separator-free fields is keyed by its first four fields |
| Aggregate.PseudoFenIdempotent | front_end/script.js:409 | cutting a key down to four fields again changes nothing |
| Aggregate.PseudoFen | front_end/script.js:409 | the transposition key has between one and four space-separated fields, and they are the leading fields of the FEN |
| Aggregate.AppendGames | front_end/script.js:392-401 | adding a set of games keeps the list, adds every game of the set that is in the series and not yet listed, builds each entry from the game table, and never repeats an id |
| Aggregate.EntryFor | front_end/script.js:396-425 | an entry carries the game's id, link and Elo from the game table and the transposed flag; a transposed entry's title is the table's title behind "(T) " |
| Aggregate.CollectGames | front_end/script.js:387-428 | the direct entries are exactly the node's games in the series; the transposed ones are exactly the table entry's games in the series that are not direct; no id repeats; direct entries come first |
| Aggregate.Compare | front_end/script.js:433-453 | direct entries sort before transposed ones; within a group, the higher Elo comes first, the lower Elo comes first, or the Elo nearer 1500 comes first, as the mode says; an unknown mode compares equal |
| Aggregate.CompareIsKeyOrder | front_end/script.js:433-453 | the comparator is the lexicographic order on (transposed, Elo key): non-positive exactly when in order, zero exactly on equal keys, antisymmetric |
| Aggregate.LeTransitive | front_end/script.js:433-453 | the comparator's order is transitive, so the sort is well defined |
| Aggregate.SortedMeans | front_end/script.js:433-453 | a sorted list has every untransposed entry first, and within a group Elo descending, ascending, or by distance from 1500, as the mode says |
| Aggregate.SortEntries | front_end/script.js:433 | sorting permutes the list |
| Aggregate.SortSorted | front_end/script.js:433-453 | the sorted list is in comparator order |
| Aggregate.SortStable | front_end/script.js:433 | sorting keeps the relative order of entries with equal keys, as `Array.prototype.sort` does |
| Aggregate.SortKeepsSorted | front_end/script.js:433 | a list already in order is left unchanged |
| Aggregate.UnknownModeKeepsGroupedOrder | front_end/script.js:449-451 | with an unknown sort value the comparator returns 0 within a group, so a grouped list keeps its order |
| Aggregate.SortNoRepeats | front_end/script.js:433 | sorting cannot introduce a repeated id |
| Aggregate.VideoList | front_end/script.js:387-453 | the final list is sorted, holds each id at most once, only lists series games, and lists exactly the direct games and the new transposed games |
| Arrows.AlphaRange | front_end/script.js:532 | every opacity lies in (0.3, 1.0] and is 1.0 exactly when the count equals the maximum |
| Arrows.AlphaMonotonic | front_end/script.js:532 | a move with more games never gets a fainter arrow |
| Arrows.Alpha | front_end/script.js:532 | the opacity is above 0.3, and its excess over 0.3 is 0.7 times the move's share of the largest count |
| Arrows.MaxGames | front_end/script.js:512-521 | the first loop finds the largest series-filtered count among the moves, or 0 when none |
| Arrows.CollectArrows | front_end/script.js:510-539 | no arrows off the book; otherwise exactly the moves with a positive count get an arrow, of opacity 0.3 + 0.7 * count / max |
| Arrows.FullOpacityIffBusiest | front_end/script.js:510-539 | an arrow is fully opaque exactly when no other move has more games |
| Divergence.FindDivergenceMeans | front_end/script.js:950-991 | the game stays in the book exactly when every ply is a child with series games; it leaves at ply `k` exactly when `k` is the first ply that is not |
| Divergence.InBookResolves | front_end/script.js:950-991 | a game that stays in the book ends on a node of the tree |
| Divergence.FindDivergencePoint | front_end/script.js:950-991 | the loop returns -1 for an empty list or no divergence, and the ply before the first exit otherwise |
| Divergence.Sentinel | front_end/script.js:985-990 | the returned number is at least -1, and -1 exactly when the game never leaves the book or leaves it at its first ply |
| Divergence.SentinelConflates | front_end/script.js:985-990 | -1 stands for both "never leaves" and "leaves at the first ply"; every other value names a single outcome |
| Divergence.LoadPgnAsWritten | front_end/script.js:936-943 | as written, loading a game that never leaves the book, or leaves it at the first ply, puts the cursor on its last move; a later exit puts the cursor on the ply before it |
| Divergence.LoadPgn | front_end/script.js:936-943 | the corrected cursor after loading a game is on the game's last ply that stays in the book, or at the start |
| Divergence.LoadPgnStopsAtLastBookPly | front_end/script.js:910-991 | after loading, every ply up to the cursor stays in the book and the next one leaves it |
| Divergence.FirstPlyExitJumpsToEnd | front_end/script.js:936-943 | as written, a game whose first move is off the book is shown at its last move, as if it never left |
| Share.NonEmpty | front_end/script.js:1108-1109 | the kept pieces are the non-empty ones, and a list without empty pieces is kept whole |
| Share.EncodeMoves | front_end/script.js:1011 | the move string of shareable moves is empty exactly when the history is; Share.DecodeEncodeMoves proves it decodes back to the moves |
| Share.DecodeMoves | front_end/script.js:1106-1112 | decoding gives at most one move per comma-separated piece, and none for an empty string |
| Share.Replay | front_end/script.js:1106-1123 | replaying keeps the moves already played and adds at most one move per request; Share.ReplayReproduces proves it rebuilds a history the library accepts move by move |
| Share.ShareSession | front_end/script.js:1005-1016 | sharing writes every field: the cursor's position, a series that counts as given exactly when it is non-empty, the flag as "true" or "false", and the colour as "w" or "b" |
| Share.EncodeMove | front_end/script.js:1011 | a move is written as its origin, then its target, then its promotion letter when there is one |
| Share.DecodeMove | front_end/script.js:1110-1112 | a piece of at least four characters is read as origin (characters 0-1) and target (2-3); a promotion is read exactly when there is a fifth character |
| Share.DecodeEncodeMove | front_end/script.js:1109-1112 | decoding one move as written at line 1011 recovers its origin, target and promotion |
| Share.DecodeEncodeMoves | front_end/script.js:1106-1123 | decoding the comma-joined move string written at line 1011 recovers every move, in order |
| Share.EncodeMoveIsUci | front_end/script.js:1011 | for a lower-case promotion the shared spelling is the UCI spelling of `getUciMoves` (lines 884-889) |
| Share.ReplayReproduces | front_end/script.js:1108-1123 | replaying the decoded moves through a chess library that accepts them rebuilds the same history |
| Share.LoadShared | front_end/script.js:1061-1131 | the corrected restore always gives a valid cursor, taking the link's position when it is valid |
| Share.LoadSettings | front_end/script.js:1061-1127 | the restore replays the link's moves, or none when the link has no moves, and leaves the cursor on the last one; the series is the link's when it exists and is non-empty; the flag is the link's exactly when it is "true" or "false"; the colour is White exactly when the link says "w"; a missing field keeps the current setting |
| Share.LoadSharedAsWritten | front_end/script.js:1061-1131 | as written, the link's position, when present, becomes the cursor as it is |
| Share.ShareRoundTrip | front_end/script.js:1001-1131 | restoring a shared link with the corrected restore reproduces the shared cursor, history, series, flag and colour |
| Share.RestoredBoard | front_end/script.js:1128-1137 | the corrected restore leaves the chess library on the cursor's position: exactly the moves up to the cursor are played |
| Share.ShareRoundTripBoard | front_end/script.js:1001-1137 | after restoring a shared link the board shows the shared position: the moves up to the shared cursor and no later ones |
| Share.RestoredBoardAsWritten | front_end/script.js:1100-1134 | as written, the chess library ends on the last replayed move, whatever position the link recorded |
| Share.SharedBoardStaysOnLastMove | front_end/script.js:1128-1137 | as written, a link shared from behind the last move restores that cursor, but the board and the transposition key (line 408) stay on the last move |
| Share.LoadSharedAgreesOnValidPositions | front_end/script.js:1129-1131 | the corrected restore differs from the source only when the link's position is out of range |
| Share.UncheckedPositionEscapes | front_end/script.js:1129-1131 | a link with one move and position 5 leaves the source's cursor past the end: the forward button is enabled yet does nothing |
| Builder.CounterOfMeans | data_collection/make_book.py:27-35 | the counter holds, for every position, how often it occurs in the counted sequence |
| Builder.CountFens | data_collection/make_book.py:27-35 | the first loop counts every position after every move of every game, repeats within a game included |
| Builder.NextTtl | data_collection/make_book.py:66-67 | a common position leaves the TTL unchanged; a corpus-unique one makes it finite, at most 6, and below a finite TTL |
| Builder.Walk | data_collection/make_book.py:62-71 | the walk records between its start and the whole game, and the whole remaining game when no position ahead is corpus-unique |
| Builder.RecordedLength | data_collection/make_book.py:62-71 | a game records at most all its moves, and all of them when none of its positions is corpus-unique; Builder.RecordedLengthMeans pins the exact length |
| Builder.RecordedLengthMeans | data_collection/make_book.py:45-71 | a game is recorded up to, and not including, the move that reaches its seventh corpus-unique position |
| Builder.CommonGameRecordedWhole | data_collection/make_book.py:66-67 | a game whose positions are all common has every move recorded |
| Builder.AddPathMeans | data_collection/make_book.py:70-71 | inserting a path adds exactly its prefixes to the tree and the game to exactly the nodes before its last move; nothing else changes |
| Builder.InsertPath | data_collection/make_book.py:70-71 | a non-empty path appends the id to the node's `game_ids` (creating the list) and adds the first move as a child, leaving every other child as it was; an empty path changes nothing |
| Builder.ConvertInsertPath | data_collection/make_book.py:70-71 | inserting into the written tree and loading it equals loading and then inserting |
| Builder.BuildStep | data_collection/make_book.py:46-71 | the book for one more row is the previous book with that row's games entry, series entry and path added |
| Builder.Build | data_collection/make_book.py:38-71 | the written book has no transposition tables, a game-table key for exactly the rows' ids, and a series for exactly the rows' series names |
| Builder.SeriesOfMeans | data_collection/make_book.py:54 | each series lists exactly its rows' game ids, in row order |
| Builder.GamesOfMeans | data_collection/make_book.py:49-53 | the game table has a key for exactly the rows' ids, each mapped to a row's label, link and starting Elo |
| Builder.TreeOfMeans | data_collection/make_book.py:60-71 | in the tree of a colour, each node holds exactly the games of that colour whose recorded path continues past it, and a node exists exactly when some such game recorded its path |
| Builder.BuildWellFormed | data_collection/make_book.py:49-54 | every game-table key is a canonical id, and every series only names games with a row |
| Builder.BuiltBookLoads | data_collection/make_book.py:46-54 | the built book, whose transposition tables the model's loader fills in as empty (see the Book.Load line under "Left out"), loads into a well-formed book whose "Any Series" is exactly the set of row ids |
| Ingest.Basename | data_collection/chess_prj.py:19 | the base name is the part of the path after its last '/' |
| Ingest.Slice | data_collection/chess_prj.py:19 | a slice clamps both bounds to the length, and within range is the ordinary sub-sequence |
| Ingest.VideoId | data_collection/chess_prj.py:18-19 | the video id has at most 11 characters, and is characters 39-49 of a base name of at least 50 |
| Ingest.PlaylistId | data_collection/chess_prj.py:22-23 | the playlist id has at most 34 characters, and is the first 34 of a base name that long |
| Ingest.IdLengths | data_collection/chess_prj.py:18-23 | the video id has at most 11 characters and the playlist id at most 34, exactly that many when the base name is long enough |
| Ingest.IdsOfFileName | data_collection/chess_prj.py:18-23 | for a file name of at least 50 characters in any directory, the ids are its characters 0-33 and 39-49 |
| Ingest.DigitsAppend | data_collection/chess_prj.py:248 | removing non-digits distributes over concatenation |
| Ingest.DigitsOfDigits | data_collection/chess_prj.py:248 | a string of digits is kept whole |
| Ingest.Digits | data_collection/chess_prj.py:248 | removing non-digits leaves only digits and never lengthens the string |
| Ingest.ExtractLast4 | data_collection/chess_prj.py:247-249 | the result lies in [0, 9999] |
| Ingest.Last4IsValueMod | data_collection/chess_prj.py:247-249 | the result is the number all the digits spell, modulo 10000 (0 when there is no digit) |
| Ingest.EnforceLast4Agree | data_collection/chess_prj.py:252-256 | the masked matrix keeps a score exactly where the two strings end in the same four digits and is 0 elsewhere, with the same shape |
| Ingest.EnforceLast4AgreeIdempotent | data_collection/chess_prj.py:252-256 | masking twice is masking once, and a surviving non-zero score always joins two strings with equal last four digits |
| Ingest.BoundsMeans | data_collection/chess_prj.py:80-85 | the minimum and maximum of each coordinate bound every point and are attained by some point |
| Ingest.AggBboxes | data_collection/chess_prj.py:77-86 | no points give no box; otherwise four corners, left-top, right-top, right-bottom, left-bottom, with left ≤ right and top ≤ bottom |
| Ingest.AggBboxesEncloses | data_collection/chess_prj.py:77-86 | every point lies in the box, and each side of the box touches some point |
| Ingest.Skipped | data_collection/chess_prj.py:108-119 | a game is skipped exactly when it does not begin from the standard position, a missing or empty setup meaning the standard start |
| Ingest.StartPosition | data_collection/chess_prj.py:108-119 | every game has a non-empty starting position: its non-empty setup, otherwise the standard start |
| Ingest.AssignColors | data_collection/chess_prj.py:124-137 | an assignment exists exactly when one side is the user; White gives the user White's Elo and Black as opponent, and Black the reverse |
| Ingest.AssignColorsSymmetric | data_collection/chess_prj.py:124-137 | seen from the other player a game swaps colour, ratings and opponent |
| Ingest.EloFigures | data_collection/chess_prj.py:191-200 | the start is the previous game's end Elo, or 400 when there is none; start plus gain is the end Elo; the opponent's estimated start differs from their end by the user's gain |
| Ingest.NameWithElo | data_collection/chess_prj.py:202-208 | the label is the name, then " (", the decimal rating, and ")" |
| Ingest.VsStr | data_collection/chess_prj.py:368-378 | the label is White's name, then " vs ", then Black's name: the user's first when playing White, the opponent's first when playing Black |
| Ingest.VsStrNamesWhiteFirst | data_collection/chess_prj.py:368-378 | the label names White first, whichever side the user played |
| Ingest.Last4OfNameWithElo | data_collection/chess_prj.py:202-208 | for a name without digits, the last four digits (`extract_last4_digits`) of "name (elo)" are the rating modulo 10000 |

## Left out

- Fetching and inflating the book, `JSON.parse` and the timers: the model starts from a parsed document (`Book.Document`).
- The promise that defers work until the book is loaded, and the order in which `onPositionChange` runs relative to state updates: asynchronous scheduling.
- DOM and SVG rendering, the arrow geometry, the promotion dialog, alerts, `localStorage`, the clipboard, base64 and `URL` handling. Opacities are Dafny `real`s, not floating point.
- Chess rules: legality, FEN generation, PGN parsing and replay. A move is a record and the chess library is the parameter `Share.Oracle`. The `loadPGN` history and the board FEN are inputs.
- `updateStatus` and `openInLichess`: they only format chess-library answers.
- Book.Convert: a node without a `game_ids` key is read as having no games. The front end would throw on such a node, and the builder leaves one at the end of every recorded path.
- Book.Load: the document's transposition tables are taken as given. The builder (`Builder.Build`) writes none, and the front end would throw on their absence; the model leaves them empty.
- Aggregate.CollectGames: a game set is iterated in an unspecified order, as JavaScript iterates a `Set` in insertion order and the lists' order is not modelled. The contract fixes the sets of listed ids, not their order before sorting.
- Arrows.CollectArrows: the arrows are a map keyed by move rather than an array in key order; drawing does not depend on the order.
- Decimal.ParseInt: only an optional sign followed by decimal digits. Leading whitespace, hexadecimal prefixes and numbers too large for a double are not modelled.
- History.PromoteAsWritten: the history after an illegal promotion is modelled, but not the exception that the next redraw of the move list raises on its `null` entry, nor the dialog left open: the model has no exceptions or DOM.
- Ingest.Digits: only ASCII digits count. Python's `\D` also keeps other Unicode decimal digits.
- Ingest.AggBboxes: coordinates are integers. The source reads numeric arrays and truncates the extremes with `int`.
- Ingest.AssignColors: the header Elos are already integers. `int()` of a malformed header would raise.
- Ingest.EloFigures: the previous game's end Elo is an input. The source finds it by grouping and ordering games in pandas.
- pandas grouping and merging, fuzzy matching (`cdist`), OCR, screenshots and timestamps in the pipeline, and the chess.com client and OCR driver scripts: library calls and I/O.
- Reading a game id out of a video URL and the thumbnail URL: display only.
- The order of the series names in the selector (alphabetical after "Any Series"): display only.

## Findings

| source | as written | input that shows it | evidently intended | confidence | as-written member | corrected member |
|---|---|---|---|---|---|---|
| front_end/src/script.js:394-398 | at the first move, `goToPreviousMove` calls `goToMove(-1)`, which returns without moving, while the back button stays enabled | a history of one move with the cursor on it; press back | the cursor goes back to the start (-1), as `goToStart` does | high; not executed | History.PreviousAsWrittenStuckOnFirstMove | History.GoToPrevious |
| front_end/script.js:936-943, 986-990 | `findDivergencePoint` returns -1 both when the game never leaves the book and when its first move is off the book, and `loadPGN` then goes to the end | a game whose first move has no series games at the root | the cursor goes to the start, the last position still in the book | high; not executed | Divergence.FirstPlyExitJumpsToEnd | Divergence.LoadPgn |
| front_end/script.js:1129-1131 | the position from a shared link is used without a range check | moves "e2e4" with position 5 | the position is kept only when it is between -1 and the last index, otherwise the cursor stays on the last replayed move | medium; not executed | Share.UncheckedPositionEscapes | Share.LoadShared |
| front_end/script.js:1128-1137 | the link's position becomes the cursor, but the chess library is not replayed to it, so the board and the transposition lookup show the last move while the move list and tree lookup follow the cursor | a game of 20 moves shared at move 5 | the library is replayed up to the cursor, as `goToMove` does | high; not executed | Share.SharedBoardStaysOnLastMove | Share.RestoredBoard |
| front_end/src/script.js:136-160 | `handlePromotion` drops the later moves and pushes whatever the library returned, `null` for an illegal move; this page's `onDrop` (lines 66-75) opens the dialog for any pawn dropped on the last rank without testing legality. The push then redraws the move list, which reads `move.piece` of the `null` entry (line 274) and throws, so the dialog stays open, `pendingPromotion` is never cleared (line 166), and every later redraw throws | a pawn dropped on an occupied square straight ahead on the last rank, from behind the last move | an illegal promotion leaves the history and the cursor unchanged | medium; not executed | History.IllegalPromotionLosesMoves | History.Promote |

=== FILE: aggregate.dfy ===
/** The video list of `onPositionChange`: the games at the current node,
    then (optionally) the games that reach the same position by another
    move order, restricted to the selected series, without repeats, and
    ordered untransposed-first and then by the chosen Elo order. */
module Aggregate {
  import opened Options
  import opened Text
  import opened Book
  import opened Sets

  /** One listed video. */
  datatype Entry = Entry(gameId: int, title: string, link: string, elo: int, transposed: bool)

  /** The transposition-table key of a FEN: its first four space-separated
      fields (placement, side to move, castling, en passant). */
  function PseudoFen(fen: string): (r: string)
    ensures 1 <= |Split(r, ' ')| <= 4
    ensures Split(r, ' ') <= Split(fen, ' ')
  {
    var fields := Split(fen, ' ');
    var key := fields[..if |fields| < 4 then |fields| else 4];
    SplitJoin(key, ' ');
    Join(key, ' ')
  }

  /** A full FEN keys the table by its first four fields. */
  lemma PseudoFenOfFields(fields: seq<string>)
    requires |fields| >= 4
    requires forall k :: 0 <= k < |fields| ==> ' ' !in fields[k]
    ensures PseudoFen(Join(fields, ' ')) == Join(fields[..4], ' ')
  {
    SplitJoin(fields, ' ');
  }

  /** Taking the key of a key changes nothing. */
  lemma PseudoFenIdempotent(fen: string)
    ensures PseudoFen(PseudoFen(fen)) == PseudoFen(fen)
  {
    var fields := Split(fen, ' ');
    var kept := fields[..if |fields| < 4 then |fields| else 4];
    assert forall k :: 0 <= k < |kept| ==> kept[k] == fields[k];
    SplitJoin(kept, ' ');
    assert kept[..|kept|] == kept;
  }

  /** The entry the source builds for a game; a transposed game's title
      carries the "(T) " prefix. */
  function EntryFor(games: map<string, GameRecord>, id: int, transposed: bool): (e: Entry)
    requires GameKey(id) in games
    ensures e.gameId == id && e.transposed == transposed
    ensures e.link == games[GameKey(id)].link && e.elo == games[GameKey(id)].elo
    ensures e.title == (if transposed then "(T) " else "") + games[GameKey(id)].title
  {
    var g := games[GameKey(id)];
    Entry(id, (if transposed then "(T) " else "") + g.title, g.link, g.elo, transposed)
  }

  function IdsWhere(entries: seq<Entry>, transposed: bool): set<int> {
    set i | 0 <= i < |entries| && entries[i].transposed == transposed :: entries[i].gameId
  }

  predicate NoRepeats(entries: seq<Entry>) {
    forall i, j :: 0 <= i < j < |entries| ==> entries[i].gameId != entries[j].gameId
  }

  /** Every untransposed entry precedes every transposed one. */
  predicate Grouped(entries: seq<Entry>) {
    forall i, j :: 0 <= i < j < |entries| && entries[i].transposed ==> entries[j].transposed
  }

  /** The ids of the listed games. */
  function Ids(entries: seq<Entry>): set<int> {
    set i | 0 <= i < |entries| :: entries[i].gameId
  }

  lemma IdsAppend(entries: seq<Entry>, e: Entry)
    ensures Ids(entries + [e]) == Ids(entries) + {e.gameId}
  {
    var r := entries + [e];
    assert r[|r| - 1] == e;
    forall x | x in Ids(entries) ensures x in Ids(r) {
      var i :| 0 <= i < |entries| && entries[i].gameId == x;
      assert r[i] == entries[i];
    }
  }

  /** Appends an entry for each game of `ids` that is in the series and not
      yet listed, in an unspecified order (the set's iteration order). */
  method AppendGames(entries: seq<Entry>, ids: set<int>, series: set<int>,
                     games: map<string, GameRecord>, transposed: bool) returns (r: seq<Entry>)
    requires forall id :: id in series ==> GameKey(id) in games
    requires NoRepeats(entries)
    requires forall i :: 0 <= i < |entries| ==> entries[i].gameId in series
    ensures |entries| <= |r| && r[..|entries|] == entries
    ensures NoRepeats(r)
    ensures forall i :: 0 <= i < |r| ==> r[i].gameId in series
    ensures forall i :: |entries| <= i < |r| ==> r[i] == EntryFor(games, r[i].gameId, transposed)
    ensures Ids(r) == Ids(entries) + ids * series
  {
    r := entries;
    var listed := Ids(entries);
    var remaining := ids;
    while remaining != {}
      invariant remaining <= ids
      invariant |entries| <= |r| && r[..|entries|] == entries
      invariant NoRepeats(r)
      invariant forall i :: 0 <= i < |r| ==> r[i].gameId in series
      invariant forall i :: |entries| <= i < |r| ==> r[i] == EntryFor(games, r[i].gameId, transposed)
      invariant listed == Ids(r)
      invariant listed == Ids(entries) + (ids - remaining) * series
      decreases remaining
    {
      var id := Pick(remaining);
      remaining := remaining - {id};
      if id in series && id !in listed {
        var e := EntryFor(games, id, transposed);
        IdsAppend(r, e);
        assert forall i :: 0 <= i < |r| ==> r[i].gameId in listed;
        r := r + [e];
        listed := listed + {id};
      }
    }
  }

  /** Parts 1 and 2 of `onPositionChange`: the direct games of the node
      (none when the position is off the book), then the transposed games
      of the table entry for the position, when that option is on. */
  method CollectGames(node: Option<Node>, series: set<int>, table: map<string, set<int>>, fen: string,
                      includeTranspositions: bool, games: map<string, GameRecord>) returns (entries: seq<Entry>)
    requires forall id :: id in series ==> GameKey(id) in games
    ensures NoRepeats(entries)
    ensures Grouped(entries)
    ensures forall i :: 0 <= i < |entries| ==> entries[i].gameId in series
    ensures forall i :: 0 <= i < |entries| ==> entries[i] == EntryFor(games, entries[i].gameId, entries[i].transposed)
    ensures IdsWhere(entries, false) == (if node.Some? then node.value.gameIds * series else {})
    ensures IdsWhere(entries, true) ==
              (if includeTranspositions && PseudoFen(fen) in table
               then table[PseudoFen(fen)] * series - IdsWhere(entries, false) else {})
  {
    var direct := if node.Some? then node.value.gameIds else {};
    var first := AppendGames([], direct, series, games, false);
    var key := PseudoFen(fen);
    if includeTranspositions && key in table {
      entries := AppendGames(first, table[key], series, games, true);
      Concatenated(first, entries, table[key] * series);
    } else {
      entries := first;
      Concatenated(first, entries, {});
    }
  }

  /** A list of untransposed entries followed by transposed ones is grouped,
      and the transposed part lists exactly the added ids not already
      listed directly. */
  lemma Concatenated(first: seq<Entry>, r: seq<Entry>, extra: set<int>)
    requires |first| <= |r| && r[..|first|] == first
    requires forall i :: 0 <= i < |first| ==> !first[i].transposed
    requires forall i :: |first| <= i < |r| ==> r[i].transposed
    requires NoRepeats(r)
    requires Ids(r) == Ids(first) + extra
    ensures Grouped(r)
    ensures IdsWhere(r, false) == Ids(first)
    ensures IdsWhere(r, true) == extra - Ids(first)
  {
    assert forall i :: 0 <= i < |first| ==> r[i] == first[i];
    forall id | id in IdsWhere(r, false) ensures id in Ids(first) {
      var i :| 0 <= i < |r| && !r[i].transposed && r[i].gameId == id;
      assert i < |first|;
    }
    forall id | id in IdsWhere(r, true) ensures id in extra - Ids(first) {
      var i :| 0 <= i < |r| && r[i].transposed && r[i].gameId == id;
      assert forall j :: 0 <= j < |first| ==> first[j].gameId != id;
      assert id in Ids(r);
    }
    assert forall j :: 0 <= j < |first| ==> first[j].gameId in Ids(first);
    forall id | id in extra - Ids(first) ensures id in IdsWhere(r, true) {
      var i :| 0 <= i < |r| && r[i].gameId == id;
      assert r[i].transposed;
    }
  }

  // ---------------------------------------------------------------------
  // Sorting the list (`videoData.sort`)

  /** The value of the sort selector: three known orders and anything else. */
  datatype SortMode = EloHighLow | EloLowHigh | EloClosest | Unknown(value: string)

  function ModeOf(value: string): SortMode {
    if value == "elo-high-low" then EloHighLow
    else if value == "elo-low-high" then EloLowHigh
    else if value == "elo-closest" then EloClosest
    else Unknown(value)
  }

  /** The Elo the "closest" order measures against. */
  const TargetElo := 1500

  function Abs(x: int): nat {
    if x < 0 then -x else x
  }

  /** The comparator the source hands to `Array.prototype.sort`: negative
      when `a` goes first, positive when `b` does. */
  function Compare(a: Entry, b: Entry, mode: SortMode): (r: int)
    ensures a.transposed != b.transposed ==> (r < 0 <==> b.transposed)
    ensures a.transposed == b.transposed && mode == EloHighLow ==> (r < 0 <==> a.elo > b.elo)
    ensures a.transposed == b.transposed && mode == EloLowHigh ==> (r < 0 <==> a.elo < b.elo)
    ensures a.transposed == b.transposed && mode == EloClosest ==>
              (r < 0 <==> Abs(a.elo - TargetElo) < Abs(b.elo - TargetElo))
    ensures a.transposed == b.transposed && mode.Unknown? ==> r == 0
  {
    if a.transposed != b.transposed then (if a.transposed then 1 else -1)
    else match mode
      case EloHighLow => b.elo - a.elo
      case EloLowHigh => a.elo - b.elo
      case EloClosest => Abs(a.elo - TargetElo) - Abs(b.elo - TargetElo)
      case Unknown(_) => 0
  }

  /** The two sort keys: the group (untransposed 0, transposed 1), then a
      number that grows along the chosen Elo order. */
  function Group(e: Entry): int {
    if e.transposed then 1 else 0
  }

  function Secondary(e: Entry, mode: SortMode): int {
    match mode
    case EloHighLow => -e.elo
    case EloLowHigh => e.elo
    case EloClosest => Abs(e.elo - TargetElo)
    case Unknown(_) => 0
  }

  function Key(e: Entry, mode: SortMode): (int, int) {
    (Group(e), Secondary(e, mode))
  }

  /** Lexicographic order on the key pair. */
  predicate KeyLe(a: Entry, b: Entry, mode: SortMode) {
    Group(a) < Group(b) || (Group(a) == Group(b) && Secondary(a, mode) <= Secondary(b, mode))
  }

  /** The comparator is the lexicographic order of the key pair: it is
      non-positive exactly when the keys are in order, zero exactly when they
      are equal, and swapping its arguments negates it. */
  lemma CompareIsKeyOrder(a: Entry, b: Entry, mode: SortMode)
    ensures Compare(a, b, mode) <= 0 <==> KeyLe(a, b, mode)
    ensures Compare(a, b, mode) == 0 <==> Key(a, mode) == Key(b, mode)
    ensures Compare(b, a, mode) == -Compare(a, b, mode)
  {
  }

  predicate Le(a: Entry, b: Entry, mode: SortMode) {
    Compare(a, b, mode) <= 0
  }

  lemma LeTotal(a: Entry, b: Entry, mode: SortMode)
    ensures Le(a, b, mode) || Le(b, a, mode)
  {
    CompareIsKeyOrder(a, b, mode);
  }

  lemma LeTransitive(a: Entry, b: Entry, c: Entry, mode: SortMode)
    requires Le(a, b, mode) && Le(b, c, mode)
    ensures Le(a, c, mode)
  {
    CompareIsKeyOrder(a, b, mode);
    CompareIsKeyOrder(b, c, mode);
    CompareIsKeyOrder(a, c, mode);
  }

  /** Every pair of entries is in comparator order. */
  predicate Sorted(r: seq<Entry>, mode: SortMode) {
    forall i, j :: 0 <= i < j < |r| ==> Le(r[i], r[j], mode)
  }

  /** The order the chosen mode asks for within one group. */
  predicate EloInOrder(mode: SortMode, a: int, b: int) {
    match mode
    case EloHighLow => a >= b
    case EloLowHigh => a <= b
    case EloClosest => Abs(a - TargetElo) <= Abs(b - TargetElo)
    case Unknown(_) => true
  }

  /** What a sorted list looks like: untransposed entries first, and within
      each group Elo descending, Elo ascending, or ascending distance from
      1500, as the mode says; any order at all for an unknown mode. */
  lemma SortedMeans(r: seq<Entry>, mode: SortMode)
    ensures Sorted(r, mode) <==>
              Grouped(r) &&
              forall i, j :: 0 <= i < j < |r| && r[i].transposed == r[j].transposed ==>
                               EloInOrder(mode, r[i].elo, r[j].elo)
  {
    if Sorted(r, mode) {
      forall i, j | 0 <= i < j < |r| && r[i].transposed ensures r[j].transposed {
        assert Le(r[i], r[j], mode);
      }
      forall i, j | 0 <= i < j < |r| && r[i].transposed == r[j].transposed
        ensures EloInOrder(mode, r[i].elo, r[j].elo)
      {
        assert Le(r[i], r[j], mode);
      }
    }
  }

  /** A non-empty list is its front followed by its last entry. */
  lemma Snoc(s: seq<Entry>)
    requires |s| > 0
    ensures s == s[..|s| - 1] + [s[|s| - 1]]
  {
  }

  /** Inserts `x` after the last entry that does not compare above it,
      scanning from the end: one step of a stable insertion sort. */
  function Insert(sorted: seq<Entry>, x: Entry, mode: SortMode): (r: seq<Entry>)
    ensures |r| == |sorted| + 1
    ensures multiset(r) == multiset(sorted) + multiset{x}
  {
    if |sorted| == 0 then [x]
    else
      var init, last := sorted[..|sorted| - 1], sorted[|sorted| - 1];
      Snoc(sorted);
      if Le(last, x, mode) then sorted + [x]
      else Insert(init, x, mode) + [last]
  }

  /** `Array.prototype.sort` with this comparator: a stable sort, written
      as insertion of each entry in turn. */
  function SortEntries(s: seq<Entry>, mode: SortMode): (r: seq<Entry>)
    ensures |r| == |s|
    ensures multiset(r) == multiset(s)
  {
    if |s| == 0 then []
    else
      assert s == s[..|s| - 1] + [s[|s| - 1]];
      Insert(SortEntries(s[..|s| - 1], mode), s[|s| - 1], mode)
  }

  lemma {:induction false} InsertSorted(sorted: seq<Entry>, x: Entry, mode: SortMode)
    requires Sorted(sorted, mode)
    ensures Sorted(Insert(sorted, x, mode), mode)
    decreases |sorted|
  {
    var r := Insert(sorted, x, mode);
    if |sorted| > 0 {
      var init, last := sorted[..|sorted| - 1], sorted[|sorted| - 1];
      if Le(last, x, mode) {
        forall i, j | 0 <= i < j < |r| ensures Le(r[i], r[j], mode) {
          if j == |sorted| && i < |sorted| - 1 {
            LeTransitive(r[i], last, x, mode);
          }
        }
      } else {
        LeTotal(last, x, mode);
        var front := Insert(init, x, mode);
        assert r == front + [last];
        InsertSorted(init, x, mode);
        forall i, j | 0 <= i < j < |r| ensures Le(r[i], r[j], mode) {
          if j == |front| {
            assert r[i] in multiset(front);
            assert r[i] in multiset(init) || r[i] == x;
          }
        }
      }
    }
  }

  lemma {:induction false} SortSorted(s: seq<Entry>, mode: SortMode)
    ensures Sorted(SortEntries(s, mode), mode)
    decreases |s|
  {
    if |s| > 0 {
      SortSorted(s[..|s| - 1], mode);
      InsertSorted(SortEntries(s[..|s| - 1], mode), s[|s| - 1], mode);
    }
  }

  function Only(e: Entry, mode: SortMode, k: (int, int)): seq<Entry> {
    if Key(e, mode) == k then [e] else []
  }

  /** The entries with key `k`, in list order. */
  function WithKey(s: seq<Entry>, mode: SortMode, k: (int, int)): seq<Entry> {
    if |s| == 0 then []
    else WithKey(s[..|s| - 1], mode, k) + Only(s[|s| - 1], mode, k)
  }

  lemma WithKeySnoc(a: seq<Entry>, e: Entry, mode: SortMode, k: (int, int))
    ensures WithKey(a + [e], mode, k) == WithKey(a, mode, k) + Only(e, mode, k)
  {
    assert (a + [e])[..|a|] == a;
  }

  /** Swapping two commuting tails behind a common front. Kept apart from
      its one caller, whose context makes the step too costly inline. */
  lemma SwapTail(w: seq<Entry>, a: seq<Entry>, b: seq<Entry>)
    requires a + b == b + a
    ensures (w + a) + b == (w + b) + a
  {
    calc {
      (w + a) + b;
      w + (a + b);
      w + (b + a);
      (w + b) + a;
    }
  }

  /** Two entries out of comparator order have different keys, so at most
      one of them is kept by a key filter. */
  lemma OnlyCommute(last: Entry, x: Entry, mode: SortMode, k: (int, int))
    requires !Le(last, x, mode)
    ensures Only(x, mode, k) + Only(last, mode, k) == Only(last, mode, k) + Only(x, mode, k)
  {
    CompareIsKeyOrder(last, x, mode);
  }

  /** Insertion in its two cases. */
  lemma InsertCases(sorted: seq<Entry>, x: Entry, mode: SortMode)
    requires |sorted| > 0
    ensures Le(sorted[|sorted| - 1], x, mode) ==> Insert(sorted, x, mode) == sorted + [x]
    ensures !Le(sorted[|sorted| - 1], x, mode) ==>
              Insert(sorted, x, mode) == Insert(sorted[..|sorted| - 1], x, mode) + [sorted[|sorted| - 1]]
  {
  }

  /** The recursive case of insertion: `x` passes `last`, which it cannot
      share a key with, so the filtered lists agree. */
  lemma InsertStablePast(init: seq<Entry>, last: Entry, x: Entry, mode: SortMode, k: (int, int))
    requires !Le(last, x, mode)
    requires WithKey(Insert(init, x, mode), mode, k) == WithKey(init, mode, k) + Only(x, mode, k)
    ensures WithKey(Insert(init + [last], x, mode), mode, k) == WithKey(init + [last], mode, k) + Only(x, mode, k)
  {
    var sorted := init + [last];
    assert sorted[..|sorted| - 1] == init && sorted[|sorted| - 1] == last;
    InsertCases(sorted, x, mode);
    var front := Insert(init, x, mode);
    WithKeySnoc(front, last, mode, k);
    WithKeySnoc(init, last, mode, k);
    OnlyCommute(last, x, mode, k);
    SwapTail(WithKey(init, mode, k), Only(x, mode, k), Only(last, mode, k));
  }

  lemma {:induction false} InsertStable(sorted: seq<Entry>, x: Entry, mode: SortMode, k: (int, int))
    ensures WithKey(Insert(sorted, x, mode), mode, k) == WithKey(sorted, mode, k) + Only(x, mode, k)
    decreases |sorted|
  {
    if |sorted| == 0 {
      assert Insert(sorted, x, mode) == [x] == [] + [x];
      WithKeySnoc([], x, mode, k);
    } else {
      var init, last := sorted[..|sorted| - 1], sorted[|sorted| - 1];
      Snoc(sorted);
      if Le(last, x, mode) {
        InsertCases(sorted, x, mode);
        WithKeySnoc(sorted, x, mode, k);
      } else {
        InsertStable(init, x, mode, k);
        InsertStablePast(init, last, x, mode, k);
      }
    }
  }

  /** The sort is stable: the entries that share a key keep their order. */
  lemma {:induction false} SortStable(s: seq<Entry>, mode: SortMode, k: (int, int))
    ensures WithKey(SortEntries(s, mode), mode, k) == WithKey(s, mode, k)
    decreases |s|
  {
    if |s| > 0 {
      SortStable(s[..|s| - 1], mode, k);
      InsertStable(SortEntries(s[..|s| - 1], mode), s[|s| - 1], mode, k);
    }
  }

  lemma SortedPrefix(s: seq<Entry>, mode: SortMode)
    requires Sorted(s, mode) && |s| > 0
    ensures Sorted(s[..|s| - 1], mode)
  {
    var init := s[..|s| - 1];
    forall i, j | 0 <= i < j < |init| ensures Le(init[i], init[j], mode) {
      assert init[i] == s[i] && init[j] == s[j];
    }
  }

  /** A list already in order comes back unchanged. */
  lemma {:induction false} SortKeepsSorted(s: seq<Entry>, mode: SortMode)
    requires Sorted(s, mode)
    ensures SortEntries(s, mode) == s
    decreases |s|
  {
    if |s| > 0 {
      var init, last := s[..|s| - 1], s[|s| - 1];
      Snoc(s);
      SortedPrefix(s, mode);
      SortKeepsSorted(init, mode);
      assert SortEntries(s, mode) == Insert(init, last, mode);
      if |init| == 0 {
        assert Insert(init, last, mode) == [last];
      } else {
        assert Le(init[|init| - 1], last, mode) by {
          assert init[|init| - 1] == s[|s| - 2];
        }
        InsertCases(init, last, mode);
      }
    }
  }

  /** With an unrecognised selector the comparator only separates the two
      groups, so a list that is already grouped keeps its order. */
  lemma UnknownModeKeepsGroupedOrder(s: seq<Entry>, value: string)
    requires ModeOf(value).Unknown?
    requires Grouped(s)
    ensures SortEntries(s, ModeOf(value)) == s
  {
    SortedMeans(s, ModeOf(value));
    SortKeepsSorted(s, ModeOf(value));
  }

  // ---------------------------------------------------------------------
  // What sorting keeps

  /** Rearranging a list keeps its sets of ids. */
  lemma SameEntriesSameIds(r: seq<Entry>, s: seq<Entry>)
    requires multiset(r) == multiset(s)
    ensures Ids(r) == Ids(s)
    ensures IdsWhere(r, false) == IdsWhere(s, false) && IdsWhere(r, true) == IdsWhere(s, true)
    ensures forall i :: 0 <= i < |r| ==> r[i] in s
  {
    forall i | 0 <= i < |r| ensures r[i] in s {
      assert r[i] in multiset(s);
    }
    forall i | 0 <= i < |s| ensures s[i] in r {
      assert s[i] in multiset(r);
    }
  }

  lemma NoRepeatsSnoc(a: seq<Entry>, e: Entry)
    ensures NoRepeats(a + [e]) <==> NoRepeats(a) && e.gameId !in Ids(a)
  {
    var r := a + [e];
    assert forall i :: 0 <= i < |a| ==> r[i] == a[i];
    assert r[|a|] == e;
  }

  lemma {:induction false} InsertNoRepeats(sorted: seq<Entry>, x: Entry, mode: SortMode)
    requires NoRepeats(sorted) && x.gameId !in Ids(sorted)
    ensures NoRepeats(Insert(sorted, x, mode))
    decreases |sorted|
  {
    if |sorted| == 0 {
      assert Insert(sorted, x, mode) == [x];
    } else {
      var init, last := sorted[..|sorted| - 1], sorted[|sorted| - 1];
      Snoc(sorted);
      NoRepeatsSnoc(init, last);
      IdsAppend(init, last);
      if Le(last, x, mode) {
        NoRepeatsSnoc(sorted, x);
      } else {
        var front := Insert(init, x, mode);
        InsertNoRepeats(init, x, mode);
        SameEntriesSameIds(front, init + [x]);
        IdsAppend(init, x);
        NoRepeatsSnoc(front, last);
      }
    }
  }

  /** Sorting a list without repeated games keeps it so. */
  lemma {:induction false} SortNoRepeats(s: seq<Entry>, mode: SortMode)
    requires NoRepeats(s)
    ensures NoRepeats(SortEntries(s, mode))
    decreases |s|
  {
    if |s| > 0 {
      var init, last := s[..|s| - 1], s[|s| - 1];
      Snoc(s);
      NoRepeatsSnoc(init, last);
      SortNoRepeats(init, mode);
      SameEntriesSameIds(SortEntries(init, mode), init);
      InsertNoRepeats(SortEntries(init, mode), last, mode);
    }
  }

  /** The whole of `onPositionChange`'s list: collect, then sort. */
  method VideoList(node: Option<Node>, series: set<int>, table: map<string, set<int>>, fen: string,
                   includeTranspositions: bool, games: map<string, GameRecord>, mode: SortMode)
    returns (entries: seq<Entry>)
    requires forall id :: id in series ==> GameKey(id) in games
    ensures Sorted(entries, mode)
    ensures NoRepeats(entries)
    ensures forall i :: 0 <= i < |entries| ==> entries[i].gameId in series
    ensures forall i :: 0 <= i < |entries| ==> entries[i] == EntryFor(games, entries[i].gameId, entries[i].transposed)
    ensures IdsWhere(entries, false) == (if node.Some? then node.value.gameIds * series else {})
    ensures IdsWhere(entries, true) ==
              (if includeTranspositions && PseudoFen(fen) in table
               then table[PseudoFen(fen)] * series - IdsWhere(entries, false) else {})
  {
    var collected := CollectGames(node, series, table, fen, includeTranspositions, games);
    entries := SortEntries(collected, mode);
    SortSorted(collected, mode);
    SortNoRepeats(collected, mode);
    SameEntriesSameIds(entries, collected);
    forall i | 0 <= i < |entries|
      ensures entries[i].gameId in series
      ensures entries[i] == EntryFor(games, entries[i].gameId, entries[i].transposed)
    {
      var j :| 0 <= j < |collected| && collected[j] == entries[i];
    }
  }
}

=== FILE: arrows.dfy ===
/** The move arrows of `onPositionChange`: one arrow per child move that
    has games in the selected series, shaded by how many it has compared
    with the busiest move. */
module Arrows {
  import opened Options
  import opened Book
  import opened Sets

  /** The number of the series' games that continue with `move`. */
  function Count(node: Node, move: string, series: set<int>): nat
    requires move in node.children
  {
    |node.children[move].gameIds * series|
  }

  /** `max` is the largest count among the node's moves, and 0 when it has
      none. */
  predicate IsMaxCount(node: Node, series: set<int>, max: nat) {
    (forall m :: m in node.children ==> Count(node, m, series) <= max) &&
    (max == 0 || exists m :: m in node.children && Count(node, m, series) == max)
  }

  /** The opacity of an arrow: 0.3 plus 0.7 times the move's share of the
      largest count. */
  function Alpha(count: nat, max: nat): (a: real)
    requires 0 < count <= max
    ensures a > 0.3
    ensures (a - 0.3) * max as real == 0.7 * count as real
  {
    0.3 + 0.7 * (count as real / max as real)
  }

  /** Every arrow is visible but never more than opaque, and fully opaque
      exactly for the busiest moves. */
  lemma AlphaRange(count: nat, max: nat)
    requires 0 < count <= max
    ensures 0.3 < Alpha(count, max) <= 1.0
    ensures Alpha(count, max) == 1.0 <==> count == max
  {
    var q := count as real / max as real;
    assert q * max as real == count as real;
    assert 0.0 < q <= 1.0;
    if q == 1.0 {
      assert count as real == max as real;
    }
  }

  /** More games never give a fainter arrow. */
  lemma AlphaMonotonic(c1: nat, c2: nat, max: nat)
    requires 0 < c1 <= c2 <= max
    ensures Alpha(c1, max) <= Alpha(c2, max)
    ensures c1 < c2 ==> Alpha(c1, max) < Alpha(c2, max)
  {
    var m := max as real;
    assert c1 as real / m <= c2 as real / m;
    assert c1 < c2 ==> c1 as real / m < c2 as real / m;
  }

  /** The largest series-filtered count among the node's moves (the first
      loop of part 3). */
  method MaxGames(node: Node, series: set<int>) returns (maxGames: nat)
    ensures IsMaxCount(node, series, maxGames)
  {
    maxGames := 0;
    var remaining := node.children.Keys;
    while remaining != {}
      invariant remaining <= node.children.Keys
      invariant forall m :: m in node.children && m !in remaining ==> Count(node, m, series) <= maxGames
      invariant maxGames == 0 || exists m :: m in node.children && Count(node, m, series) == maxGames
      decreases remaining
    {
      var move := Pick(remaining);
      remaining := remaining - {move};
      var size := Count(node, move, series);
      if size > maxGames {
        maxGames := size;
      }
    }
  }

  /** Part 3 of `onPositionChange`: the arrows for the node at the current
      position, keyed by move; none when the position is off the book. */
  method CollectArrows(node: Option<Node>, series: set<int>) returns (arrows: map<string, real>)
    ensures node.None? ==> arrows == map[]
    ensures node.Some? ==>
              arrows.Keys == set m | m in node.value.children && Count(node.value, m, series) > 0
    ensures node.Some? ==>
              exists max: nat :: IsMaxCount(node.value, series, max) &&
                forall m :: m in arrows ==>
                  (m in node.value.children &&
                   0 < Count(node.value, m, series) <= max &&
                   arrows[m] == Alpha(Count(node.value, m, series), max))
    ensures forall m :: m in arrows ==> 0.3 < arrows[m] <= 1.0
  {
    arrows := map[];
    if node.None? {
      return;
    }
    var n := node.value;
    var maxGames := MaxGames(n, series);
    var remaining := n.children.Keys;
    while remaining != {}
      invariant remaining <= n.children.Keys
      invariant arrows.Keys == set m | m in n.children && m !in remaining && Count(n, m, series) > 0
      invariant forall m :: m in arrows ==>
                  (m in n.children && 0 < Count(n, m, series) <= maxGames &&
                   arrows[m] == Alpha(Count(n, m, series), maxGames))
      invariant forall m :: m in arrows ==> 0.3 < arrows[m] <= 1.0
      decreases remaining
    {
      var move := Pick(remaining);
      remaining := remaining - {move};
      var size := Count(n, move, series);
      if size > 0 {
        AlphaRange(size, maxGames);
        arrows := arrows[move := Alpha(size, maxGames)];
      }
    }
  }

  /** An arrow is drawn at full opacity exactly for the moves with the
      most games. */
  lemma FullOpacityIffBusiest(node: Node, series: set<int>, max: nat, m: string)
    requires IsMaxCount(node, series, max)
    requires m in node.children && Count(node, m, series) > 0
    ensures Alpha(Count(node, m, series), max) == 1.0 <==>
              forall m' :: m' in node.children ==> Count(node, m', series) <= Count(node, m, series)
  {
    AlphaRange(Count(node, m, series), max);
    if Count(node, m, series) < max {
      var w :| w in node.children && Count(node, w, series) == max;
      assert Count(node, w, series) > Count(node, m, series);
    }
  }
}

=== FILE: book.dfy ===
/** The opening book: the per-colour move trees annotated with game ids,
    the game table, the named series and the transposition tables, both as
    the builder writes them (lists, optional `game_ids`) and as the front end
    holds them after loading (sets). */
module Book {
  import opened Options
  import opened Decimal

  /** The series the loader synthesises from the game table. */
  const AnySeries: string := "Any Series"

  datatype Color = White | Black

  /** A tree node as written to the book document: `game_ids` is absent
      until the builder records a move out of the node. */
  datatype RawNode = RawNode(gameIds: Option<seq<int>>, children: map<string, RawNode>)

  /** A tree node as the front end reads it: the games that pass through
      the node, and one child per recorded UCI move. */
  datatype Node = Node(gameIds: set<int>, children: map<string, Node>)

  /** A node with no games and no moves; also what the builder creates
      for a move it has not seen before. */
  const EmptyNode: Node := Node({}, map[])
  const EmptyRaw: RawNode := RawNode(None, map[])

  /** One row of the `games` table: `[vs_str, yt_link, player_start_elo]`. */
  datatype GameRecord = GameRecord(title: string, link: string, elo: int)

  /** The book document: every collection is still a list. */
  datatype Document = Document(
    series: map<string, seq<int>>,
    games: map<string, GameRecord>,
    whiteTranspositions: map<string, seq<int>>,
    blackTranspositions: map<string, seq<int>>,
    white: RawNode,
    black: RawNode)

  /** The book after loading: lists have become sets and "Any Series" exists. */
  datatype OpeningBook = OpeningBook(
    series: map<string, set<int>>,
    games: map<string, GameRecord>,
    whiteTranspositions: map<string, set<int>>,
    blackTranspositions: map<string, set<int>>,
    white: Node,
    black: Node)

  function Root(b: OpeningBook, c: Color): Node {
    match c
    case White => b.white
    case Black => b.black
  }

  function Transpositions(b: OpeningBook, c: Color): map<string, set<int>> {
    match c
    case White => b.whiteTranspositions
    case Black => b.blackTranspositions
  }

  function SetOf(xs: seq<int>): (s: set<int>)
    ensures forall x :: x in s <==> x in xs
  {
    set x | x in xs
  }

  function SetsOf(m: map<string, seq<int>>): (r: map<string, set<int>>)
    ensures r.Keys == m.Keys
    ensures forall k, x :: k in m ==> (x in r[k] <==> x in m[k])
  {
    map k | k in m :: SetOf(m[k])
  }

  /** The front end's tree conversion: each `game_ids` list becomes a set,
      and a node without `game_ids` gets the empty set. */
  function Convert(r: RawNode): (n: Node)
    ensures n.children.Keys == r.children.Keys
    ensures forall x :: x in n.gameIds <==> r.gameIds.Some? && x in r.gameIds.value
  {
    Node(if r.gameIds.Some? then SetOf(r.gameIds.value) else {},
         map k | k in r.children :: Convert(r.children[k]))
  }

  /** Conversion commutes with taking a child. */
  lemma ConvertChild(r: RawNode, m: string)
    requires m in r.children
    ensures Convert(r).children[m] == Convert(r.children[m])
  {
  }

  /** The integers `parseInt` reads from the keys of the game table. */
  function ParsedGameIds(games: map<string, GameRecord>): set<int>
  {
    set k | k in games && ParseInt(k).Some? :: ParseInt(k).value
  }

  /** Loading a parsed document: series and transposition lists become sets,
      every tree is converted, and "Any Series" is set to the parsed game keys,
      replacing a stored series of that name. */
  function Load(doc: Document): (b: OpeningBook)
    ensures b.series.Keys == doc.series.Keys + {AnySeries}
    ensures b.series[AnySeries] == ParsedGameIds(doc.games)
    ensures forall name, id :: name in doc.series && name != AnySeries ==>
              (id in b.series[name] <==> id in doc.series[name])
    ensures b.games == doc.games
    ensures forall c :: Root(b, c) == Convert(match c case White => doc.white case Black => doc.black)
  {
    OpeningBook(
      SetsOf(doc.series)[AnySeries := ParsedGameIds(doc.games)],
      doc.games,
      SetsOf(doc.whiteTranspositions),
      SetsOf(doc.blackTranspositions),
      Convert(doc.white),
      Convert(doc.black))
  }

  /** The key under which the game table stores a game id. */
  function GameKey(id: int): string {
    IntToString(id)
  }

  /** Every key of the game table is the decimal spelling of a game id. */
  predicate CanonicalKeys(games: map<string, GameRecord>) {
    forall k :: k in games ==> ParseInt(k).Some? && GameKey(ParseInt(k).value) == k
  }

  /** Every game a series names has a row in the game table, which is what
      the game list needs when it looks a listed game up. */
  predicate WellFormed(b: OpeningBook) {
    && AnySeries in b.series
    && forall name, id :: name in b.series && id in b.series[name] ==> GameKey(id) in b.games
  }

  /** With canonical keys, "Any Series" is exactly the set of stored game ids. */
  lemma AnySeriesIsGameIds(doc: Document, ids: set<int>)
    requires doc.games.Keys == set id | id in ids :: GameKey(id)
    ensures Load(doc).series[AnySeries] == ids
  {
    ParsedCanonicalKeys(doc.games, ids);
  }

  /** Parsing back the canonical keys of a set of ids gives that set. */
  lemma ParsedCanonicalKeys(games: map<string, GameRecord>, ids: set<int>)
    requires games.Keys == set id | id in ids :: GameKey(id)
    ensures ParsedGameIds(games) == ids
  {
    forall id | id in ids ensures id in ParsedGameIds(games) {
      KeyParses(games, id);
    }
    forall id | id in ParsedGameIds(games) ensures id in ids {
      ParsedKeyIsCanonical(games, ids, id);
    }
  }

  lemma KeyParses(games: map<string, GameRecord>, id: int)
    requires GameKey(id) in games
    ensures id in ParsedGameIds(games)
  {
    ParseIntToString(id);
  }

  lemma ParsedKeyIsCanonical(games: map<string, GameRecord>, ids: set<int>, id: int)
    requires games.Keys == set id | id in ids :: GameKey(id)
    requires id in ParsedGameIds(games)
    ensures id in ids
  {
    var k :| k in games && ParseInt(k).Some? && ParseInt(k).value == id;
    var id' :| id' in ids && k == GameKey(id');
    ParseIntToString(id');
  }

  /** Loading a document whose keys are canonical and whose series only name
      stored games gives a well-formed book. */
  lemma LoadWellFormed(doc: Document)
    requires CanonicalKeys(doc.games)
    requires forall name, id :: name in doc.series && id in doc.series[name] ==> GameKey(id) in doc.games
    ensures WellFormed(Load(doc))
  {
    var b := Load(doc);
    forall name, id | name in b.series && id in b.series[name] ensures GameKey(id) in b.games {
      if name == AnySeries {
        var k :| k in doc.games && ParseInt(k) == Some(id);
      }
    }
  }

  /** The series selection: a requested name is taken when it is non-empty
      and names a series, otherwise the current selection stays. Used with
      the saved preference (current = "Any Series") and with a shared link. */
  function ChooseSeries(series: map<string, set<int>>, current: string, requested: Option<string>): (r: string)
    ensures current in series ==> r in series
    ensures r == current || (requested == Some(r) && r != "" && r in series)
    ensures requested.Some? && requested.value != "" && requested.value in series ==> r == requested.value
  {
    if requested.Some? && requested.value != "" && requested.value in series then requested.value
    else current
  }

  /** After loading, the default selection always names a series. */
  lemma InitialSelectionExists(doc: Document, saved: Option<string>)
    ensures ChooseSeries(Load(doc).series, AnySeries, saved) in Load(doc).series
  {
  }
}

=== FILE: builder.dfy ===
/** The book builder (`make_book.py`): counting how often each position
    occurs across the corpus, then adding every game to the game table, to
    its series and, move by move, to the tree of the user's colour until the
    game has gone far enough past the positions it shares with other games.
    Positions (FENs) are opaque strings here; reading PGN and playing the
    moves is left to the chess library. */
module Builder {
  import opened Options
  import opened Decimal
  import opened Book
  import opened Resolver

  /** One move of a game: its UCI spelling and the FEN of the position it
      leads to. */
  datatype Ply = Ply(uci: string, fen: string)

  /** One row of the final table: the game's id, label, video link, the
      user's starting Elo, the series, the colour the user played and the
      main line. */
  datatype GameRow = GameRow(gameId: int, vsStr: string, ytLink: string, startElo: int,
                             seriesName: string, color: Color, plies: seq<Ply>)

  // ---------------------------------------------------------------------
  // The position counter

  function Fens(plies: seq<Ply>): (r: seq<string>)
    ensures |r| == |plies| && forall i :: 0 <= i < |plies| ==> r[i] == plies[i].fen
  {
    seq(|plies|, i requires 0 <= i < |plies| => plies[i].fen)
  }

  /** The positions of every game, one entry per move, in order. */
  function AllFens(rows: seq<GameRow>): seq<string> {
    if |rows| == 0 then [] else AllFens(rows[..|rows| - 1]) + Fens(rows[|rows| - 1].plies)
  }

  /** A `collections.Counter` lookup: a missing key counts 0. */
  function Lookup(counter: map<string, nat>, fen: string): nat {
    if fen in counter then counter[fen] else 0
  }

  /** Counting one more occurrence of `fen`. */
  function Bump(counter: map<string, nat>, fen: string): map<string, nat> {
    counter[fen := Lookup(counter, fen) + 1]
  }

  /** The counter after counting `seen` one position at a time. */
  function CounterOf(seen: seq<string>): map<string, nat> {
    if |seen| == 0 then map[] else Bump(CounterOf(seen[..|seen| - 1]), seen[|seen| - 1])
  }

  lemma {:induction false} CounterOfMeans(seen: seq<string>)
    ensures forall f :: Lookup(CounterOf(seen), f) == multiset(seen)[f]
  {
    if |seen| > 0 {
      var init := seen[..|seen| - 1];
      CounterOfMeans(init);
      assert seen == init + [seen[|seen| - 1]];
    }
  }

  lemma CounterOfSnoc(seen: seq<string>, fen: string)
    ensures CounterOf(seen + [fen]) == Bump(CounterOf(seen), fen)
  {
    assert (seen + [fen])[..|seen|] == seen;
  }

  /** One more move of the current game. */
  lemma CountStep(before: seq<string>, plies: seq<Ply>, j: nat)
    requires j < |plies|
    ensures CounterOf(before + Fens(plies[..j + 1])) == Bump(CounterOf(before + Fens(plies[..j])), plies[j].fen)
  {
    assert before + Fens(plies[..j + 1]) == (before + Fens(plies[..j])) + [plies[j].fen];
    CounterOfSnoc(before + Fens(plies[..j]), plies[j].fen);
  }

  /** The counts before a game's first move, and after its last. */
  lemma CountGameEnds(rows: seq<GameRow>, i: nat)
    requires i < |rows|
    ensures CounterOf(AllFens(rows[..i]) + Fens(rows[i].plies[..0])) == CounterOf(AllFens(rows[..i]))
    ensures CounterOf(AllFens(rows[..i]) + Fens(rows[i].plies[..|rows[i].plies|])) == CounterOf(AllFens(rows[..i + 1]))
  {
    assert AllFens(rows[..i]) + Fens(rows[i].plies[..0]) == AllFens(rows[..i]);
    assert rows[..i + 1][..i] == rows[..i];
    assert rows[i].plies[..|rows[i].plies|] == rows[i].plies;
  }

  /** The first loop of the builder: `fen_counter[fen] += 1` for the
      position after every move of every game. */
  method CountFens(rows: seq<GameRow>) returns (counter: map<string, nat>)
    ensures forall f :: Lookup(counter, f) == multiset(AllFens(rows))[f]
  {
    counter := map[];
    var i := 0;
    while i < |rows|
      invariant 0 <= i <= |rows|
      invariant counter == CounterOf(AllFens(rows[..i]))
    {
      var plies := rows[i].plies;
      ghost var before := AllFens(rows[..i]);
      CountGameEnds(rows, i);
      var j := 0;
      while j < |plies|
        invariant 0 <= j <= |plies|
        invariant counter == CounterOf(before + Fens(plies[..j]))
      {
        var fen := plies[j].fen;
        CountStep(before, plies, j);
        counter := Bump(counter, fen);
        j := j + 1;
      }
      i := i + 1;
    }
    assert rows[..i] == rows;
    CounterOfMeans(AllFens(rows));
  }

  // ---------------------------------------------------------------------
  // How far a game goes into the tree

  /** `TTL_PAST_UNIQUE`. */
  const TtlPastUnique: int := 6

  /** The time to live: infinite until the game first reaches a position
      no other game reaches. */
  datatype Ttl = Infinite | Finite(n: int)

  function Min(a: int, b: int): int {
    if a <= b then a else b
  }

  /** One step: a position seen fewer than twice in the corpus lowers the
      TTL to `min(TTL_PAST_UNIQUE, TTL - 1)`; a common one leaves it. */
  function NextTtl(ttl: Ttl, count: nat): (r: Ttl)
    ensures count >= 2 ==> r == ttl
    ensures count < 2 ==> r.Finite? && r.n <= TtlPastUnique && (ttl.Finite? ==> r.n < ttl.n)
  {
    if count < 2 then
      Finite(match ttl
             case Infinite => TtlPastUnique
             case Finite(n) => Min(TtlPastUnique, n - 1))
    else ttl
  }

  /** The number of moves recorded from ply `i` on: the walk stops before
      the move whose step brings the TTL to 0. */
  function Walk(plies: seq<Ply>, counter: map<string, nat>, i: nat, ttl: Ttl): (k: nat)
    requires i <= |plies|
    ensures i <= k <= |plies|
    ensures ttl.Infinite? && (forall j :: i <= j < |plies| ==> Lookup(counter, plies[j].fen) >= 2) ==> k == |plies|
    decreases |plies| - i
  {
    if i == |plies| then |plies|
    else
      var next := NextTtl(ttl, Lookup(counter, plies[i].fen));
      if next == Finite(0) then i else Walk(plies, counter, i + 1, next)
  }

  /** How many moves of a game become edges of the tree. */
  function RecordedLength(plies: seq<Ply>, counter: map<string, nat>): (k: nat)
    ensures k <= |plies|
    ensures (forall j :: 0 <= j < |plies| ==> Lookup(counter, plies[j].fen) >= 2) ==> k == |plies|
  {
    Walk(plies, counter, 0, Infinite)
  }

  /** The number of the first `k` moves that lead to a position occurring
      fewer than twice in the corpus. */
  function Uniques(plies: seq<Ply>, counter: map<string, nat>, k: nat): nat
    requires k <= |plies|
  {
    if k == 0 then 0
    else Uniques(plies, counter, k - 1) + (if Lookup(counter, plies[k - 1].fen) < 2 then 1 else 0)
  }

  /** The TTL after `u` unique positions. */
  function TtlAfter(u: nat): Ttl {
    if u == 0 then Infinite else Finite(TtlPastUnique + 1 - u)
  }

  lemma {:induction false} WalkMeans(plies: seq<Ply>, counter: map<string, nat>, i: nat, ttl: Ttl)
    requires i <= |plies|
    requires Uniques(plies, counter, i) <= TtlPastUnique && ttl == TtlAfter(Uniques(plies, counter, i))
    ensures var r := Walk(plies, counter, i, ttl);
            i <= r <= |plies| &&
            Uniques(plies, counter, r) <= TtlPastUnique &&
            (r < |plies| ==> Uniques(plies, counter, r + 1) == TtlPastUnique + 1)
    decreases |plies| - i
  {
    if i < |plies| {
      var next := NextTtl(ttl, Lookup(counter, plies[i].fen));
      assert next == TtlAfter(Uniques(plies, counter, i + 1));
      if next != Finite(0) {
        WalkMeans(plies, counter, i + 1, next);
      }
    }
  }

  /** The recorded prefix stops right before the move that reaches the
      game's seventh corpus-unique position; a game with fewer is recorded
      whole. */
  lemma RecordedLengthMeans(plies: seq<Ply>, counter: map<string, nat>)
    ensures var n := RecordedLength(plies, counter);
            n <= |plies| &&
            Uniques(plies, counter, n) <= TtlPastUnique &&
            (n < |plies| ==> Uniques(plies, counter, n + 1) == TtlPastUnique + 1)
  {
    WalkMeans(plies, counter, 0, Infinite);
  }

  /** A game whose every position is shared with another game is recorded
      in full. */
  lemma {:induction false} CommonGameRecordedWhole(plies: seq<Ply>, counter: map<string, nat>)
    requires forall i :: 0 <= i < |plies| ==> Lookup(counter, plies[i].fen) >= 2
    ensures RecordedLength(plies, counter) == |plies|
  {
    RecordedLengthMeans(plies, counter);
    var n := RecordedLength(plies, counter);
    NoUniques(plies, counter, if n < |plies| then n + 1 else n);
  }

  lemma {:induction false} NoUniques(plies: seq<Ply>, counter: map<string, nat>, k: nat)
    requires k <= |plies|
    requires forall i :: 0 <= i < |plies| ==> Lookup(counter, plies[i].fen) >= 2
    ensures Uniques(plies, counter, k) == 0
  {
    if k > 0 {
      NoUniques(plies, counter, k - 1);
    }
  }

  function Ucis(plies: seq<Ply>): (r: seq<string>)
    ensures |r| == |plies| && forall i :: 0 <= i < |plies| ==> r[i] == plies[i].uci
  {
    seq(|plies|, i requires 0 <= i < |plies| => plies[i].uci)
  }

  /** The moves of a game that become edges of its colour's tree. */
  function RecordedPath(row: GameRow, counter: map<string, nat>): seq<string> {
    var n := RecordedLength(row.plies, counter);
    RecordedLengthMeans(row.plies, counter);
    Ucis(row.plies[..n])
  }

  // ---------------------------------------------------------------------
  // Inserting a game's path

  /** The insertion loop on the document's tree: the game id is appended to
      the current node's `game_ids` (creating the list), then the walk
      descends into the child for the move (creating it empty). The node
      reached by the last move gets nothing from this game. */
  function InsertPath(raw: RawNode, moves: seq<string>, id: int): (r: RawNode)
    ensures |moves| == 0 ==> r == raw
    ensures |moves| > 0 ==> r.gameIds == Some(raw.gameIds.GetOr([]) + [id])
    ensures |moves| > 0 ==> r.children.Keys == raw.children.Keys + {moves[0]}
    ensures |moves| > 0 ==> forall m :: m in raw.children && m != moves[0] ==> r.children[m] == raw.children[m]
    decreases |moves|
  {
    if |moves| == 0 then raw
    else
      var ids := raw.gameIds.GetOr([]) + [id];
      var child := if moves[0] in raw.children then raw.children[moves[0]] else EmptyRaw;
      RawNode(Some(ids), raw.children[moves[0] := InsertPath(child, moves[1..], id)])
  }

  /** The same insertion on a loaded tree. */
  function AddPath(n: Node, moves: seq<string>, id: int): Node
    decreases |moves|
  {
    if |moves| == 0 then n
    else
      var child := if moves[0] in n.children then n.children[moves[0]] else EmptyNode;
      Node(n.gameIds + {id}, n.children[moves[0] := AddPath(child, moves[1..], id)])
  }

  /** Loading after inserting is inserting after loading. */
  lemma {:induction false} ConvertInsertPath(raw: RawNode, moves: seq<string>, id: int)
    ensures Convert(InsertPath(raw, moves, id)) == AddPath(Convert(raw), moves, id)
    decreases |moves|
  {
    if |moves| > 0 {
      var m := moves[0];
      var child := if m in raw.children then raw.children[m] else EmptyRaw;
      var inserted := InsertPath(child, moves[1..], id);
      ConvertInsertPath(child, moves[1..], id);
      assert Convert(child) == if m in Convert(raw).children then Convert(raw).children[m] else EmptyNode;
      ConvertUpdate(raw, raw.gameIds.GetOr([]) + [id], m, inserted);
    }
  }

  /** Converting a node whose child `m` was replaced replaces the converted
      child. */
  lemma ConvertUpdate(raw: RawNode, ids: seq<int>, m: string, c: RawNode)
    ensures Convert(RawNode(Some(ids), raw.children[m := c])) ==
              Node(SetOf(ids), Convert(raw).children[m := Convert(c)])
  {
    var lhs := Convert(RawNode(Some(ids), raw.children[m := c])).children;
    var rhs := Convert(raw).children[m := Convert(c)];
    assert lhs.Keys == rhs.Keys;
    forall k | k in lhs ensures lhs[k] == rhs[k] {
      if k != m {
        ConvertChild(raw, k);
      }
    }
  }

  /** The games recorded at the end of a path, or none when the path is not
      in the tree. */
  function GameIdsAt(n: Node, p: seq<string>): set<int> {
    match Resolve(n, p)
    case None => {}
    case Some(x) => x.gameIds
  }

  lemma {:induction false} EmptyNodePaths(p: seq<string>)
    ensures Resolve(EmptyNode, p).Some? <==> p == []
    ensures GameIdsAt(EmptyNode, p) == {}
  {
  }

  /** Inserting a path adds exactly its prefixes to the tree, and adds the
      game to exactly the nodes before its last move; nothing else changes. */
  lemma {:induction false} AddPathMeans(n: Node, moves: seq<string>, id: int, p: seq<string>)
    ensures Resolve(AddPath(n, moves, id), p).Some? <==> Resolve(n, p).Some? || p <= moves
    ensures GameIdsAt(AddPath(n, moves, id), p) == GameIdsAt(n, p) + (if p < moves then {id} else {})
    decreases |moves|
  {
    if |moves| > 0 && |p| > 0 {
      var m := moves[0];
      var child := if m in n.children then n.children[m] else EmptyNode;
      var added := AddPath(n, moves, id);
      if p[0] == m {
        AddPathMeans(child, moves[1..], id, p[1..]);
        assert p <= moves <==> p[1..] <= moves[1..];
        assert p < moves <==> p[1..] < moves[1..];
        if m !in n.children {
          EmptyNodePaths(p[1..]);
        }
      } else {
        assert !(p <= moves);
        if p[0] in n.children {
          assert added.children[p[0]] == n.children[p[0]];
        }
      }
    }
  }

  // ---------------------------------------------------------------------
  // Building the document

  const EmptyDocument: Document := Document(map[], map[], map[], map[], EmptyRaw, EmptyRaw)

  function RawRoot(doc: Document, c: Color): RawNode {
    match c
    case White => doc.white
    case Black => doc.black
  }

  function Record(row: GameRow): GameRecord {
    GameRecord(row.vsStr, row.ytLink, row.startElo)
  }

  /** The second loop's body for one row: the game table entry
      `[vs_str, yt_link, player_start_elo]`, the id appended to the series
      list (created empty), and the path in the tree of the row's colour. */
  function AddRow(doc: Document, row: GameRow, counter: map<string, nat>): Document {
    var listed := if row.seriesName in doc.series then doc.series[row.seriesName] else [];
    var doc' := doc.(
      games := doc.games[GameKey(row.gameId) := Record(row)],
      series := doc.series[row.seriesName := listed + [row.gameId]]);
    var path := RecordedPath(row, counter);
    match row.color
    case White => doc'.(white := InsertPath(doc.white, path, row.gameId))
    case Black => doc'.(black := InsertPath(doc.black, path, row.gameId))
  }

  /** The game table after the rows. */
  function GamesOf(rows: seq<GameRow>): map<string, GameRecord> {
    if |rows| == 0 then map[]
    else GamesOf(rows[..|rows| - 1])[GameKey(rows[|rows| - 1].gameId) := Record(rows[|rows| - 1])]
  }

  /** The series lists after the rows. */
  function SeriesOf(rows: seq<GameRow>): map<string, seq<int>> {
    if |rows| == 0 then map[]
    else
      var s, row := SeriesOf(rows[..|rows| - 1]), rows[|rows| - 1];
      s[row.seriesName := (if row.seriesName in s then s[row.seriesName] else []) + [row.gameId]]
  }

  /** The tree of colour `c` after the rows. */
  function TreeOf(rows: seq<GameRow>, counter: map<string, nat>, c: Color): RawNode {
    if |rows| == 0 then EmptyRaw
    else
      var t, row := TreeOf(rows[..|rows| - 1], counter, c), rows[|rows| - 1];
      if row.color == c then InsertPath(t, RecordedPath(row, counter), row.gameId) else t
  }

  /** The document the builder writes. The transposition tables are not
      produced by this loop and stay empty. */
  function Build(rows: seq<GameRow>, counter: map<string, nat>): (d: Document)
    ensures d.whiteTranspositions == map[] && d.blackTranspositions == map[]
    ensures d.games.Keys == GameKeys(rows)
    ensures d.series.Keys == SeriesNames(rows)
  {
    GamesOfMeans(rows);
    SeriesOfMeans(rows);
    Document(SeriesOf(rows), GamesOf(rows), map[], map[], TreeOf(rows, counter, White), TreeOf(rows, counter, Black))
  }

  /** Building is the row loop: the document for one more row is the
      previous document with the loop body applied to that row. */
  lemma BuildStep(rows: seq<GameRow>, row: GameRow, counter: map<string, nat>)
    ensures Build(rows + [row], counter) == AddRow(Build(rows, counter), row, counter)
  {
    var rows' := rows + [row];
    assert rows'[..|rows'| - 1] == rows && rows'[|rows'| - 1] == row;
  }

  lemma BuildEmpty(counter: map<string, nat>)
    ensures Build([], counter) == EmptyDocument
  {
  }

  /** The ids of the rows of a series, in row order. */
  function SeriesIds(rows: seq<GameRow>, name: string): seq<int> {
    if |rows| == 0 then []
    else SeriesIds(rows[..|rows| - 1], name) +
         (if rows[|rows| - 1].seriesName == name then [rows[|rows| - 1].gameId] else [])
  }

  function SeriesNames(rows: seq<GameRow>): set<string> {
    set i | 0 <= i < |rows| :: rows[i].seriesName
  }

  lemma SeriesNamesSnoc(rows: seq<GameRow>)
    requires |rows| > 0
    ensures SeriesNames(rows) == SeriesNames(rows[..|rows| - 1]) + {rows[|rows| - 1].seriesName}
  {
    var init := rows[..|rows| - 1];
    forall x | x in SeriesNames(init) ensures x in SeriesNames(rows) {
      var i :| 0 <= i < |init| && init[i].seriesName == x;
      assert rows[i] == init[i];
    }
  }

  /** Only named series exist, and each lists the ids of its rows in row
      order, repeats included. */
  lemma {:induction false} SeriesOfMeans(rows: seq<GameRow>)
    ensures SeriesOf(rows).Keys == SeriesNames(rows)
    ensures forall name :: name in SeriesOf(rows) ==> SeriesOf(rows)[name] == SeriesIds(rows, name)
  {
    if |rows| > 0 {
      var init := rows[..|rows| - 1];
      SeriesOfMeans(init);
      SeriesNamesSnoc(rows);
      forall name | name in SeriesOf(rows) ensures SeriesOf(rows)[name] == SeriesIds(rows, name) {
        if name !in SeriesOf(init) {
          NoSeriesIds(init, name);
        }
      }
    }
  }

  lemma {:induction false} NoSeriesIds(rows: seq<GameRow>, name: string)
    requires name !in SeriesOf(rows)
    ensures SeriesIds(rows, name) == []
  {
    if |rows| > 0 {
      NoSeriesIds(rows[..|rows| - 1], name);
    }
  }

  function GameKeys(rows: seq<GameRow>): set<string> {
    set i | 0 <= i < |rows| :: GameKey(rows[i].gameId)
  }

  lemma GameKeysSnoc(rows: seq<GameRow>)
    requires |rows| > 0
    ensures GameKeys(rows) == GameKeys(rows[..|rows| - 1]) + {GameKey(rows[|rows| - 1].gameId)}
  {
    var init := rows[..|rows| - 1];
    forall x | x in GameKeys(init) ensures x in GameKeys(rows) {
      var i :| 0 <= i < |init| && GameKey(init[i].gameId) == x;
      assert rows[i] == init[i];
    }
  }

  /** The game table has one entry per game id of the rows, holding the
      record of a row with that id (the last one, as later rows overwrite). */
  lemma {:induction false} GamesOfMeans(rows: seq<GameRow>)
    ensures GamesOf(rows).Keys == GameKeys(rows)
    ensures forall k :: k in GamesOf(rows) ==>
              exists i :: 0 <= i < |rows| && GameKey(rows[i].gameId) == k && GamesOf(rows)[k] == Record(rows[i])
  {
    if |rows| > 0 {
      var init := rows[..|rows| - 1];
      GamesOfMeans(init);
      GameKeysSnoc(rows);
      forall k | k in GamesOf(rows)
        ensures exists i :: 0 <= i < |rows| && GameKey(rows[i].gameId) == k && GamesOf(rows)[k] == Record(rows[i])
      {
        if k == GameKey(rows[|rows| - 1].gameId) {
          assert GamesOf(rows)[k] == Record(rows[|rows| - 1]);
        } else {
          var i :| 0 <= i < |init| && GameKey(init[i].gameId) == k && GamesOf(init)[k] == Record(init[i]);
          assert rows[i] == init[i];
        }
      }
    }
  }

  /** The games of the rows of colour `c` whose recorded path passes
      strictly through the end of `p`. */
  function GamesThrough(rows: seq<GameRow>, counter: map<string, nat>, c: Color, p: seq<string>): set<int> {
    if |rows| == 0 then {}
    else
      var row := rows[|rows| - 1];
      GamesThrough(rows[..|rows| - 1], counter, c, p) +
      (if row.color == c && p < RecordedPath(row, counter) then {row.gameId} else {})
  }

  /** Some row of colour `c` records every move of `p`. */
  predicate SomeRowReaches(rows: seq<GameRow>, counter: map<string, nat>, c: Color, p: seq<string>) {
    exists i :: 0 <= i < |rows| && rows[i].color == c && p <= RecordedPath(rows[i], counter)
  }

  lemma SomeRowReachesSnoc(rows: seq<GameRow>, counter: map<string, nat>, c: Color, p: seq<string>)
    requires |rows| > 0
    ensures SomeRowReaches(rows, counter, c, p) <==>
              SomeRowReaches(rows[..|rows| - 1], counter, c, p) ||
              (rows[|rows| - 1].color == c && p <= RecordedPath(rows[|rows| - 1], counter))
  {
    var init := rows[..|rows| - 1];
    if SomeRowReaches(init, counter, c, p) {
      var i :| 0 <= i < |init| && init[i].color == c && p <= RecordedPath(init[i], counter);
      assert rows[i] == init[i];
    }
    if SomeRowReaches(rows, counter, c, p) {
      var i :| 0 <= i < |rows| && rows[i].color == c && p <= RecordedPath(rows[i], counter);
      if i < |init| {
        assert rows[i] == init[i];
      }
    }
  }

  /** In the loaded tree of colour `c`, the games at every path are exactly
      the games whose recorded path continues past it, and a path exists
      exactly when it is the start or some game of that colour recorded it. */
  lemma TreeOfMeans(rows: seq<GameRow>, counter: map<string, nat>, c: Color, p: seq<string>)
    ensures GameIdsAt(Convert(TreeOf(rows, counter, c)), p) == GamesThrough(rows, counter, c, p)
    ensures Resolve(Convert(TreeOf(rows, counter, c)), p).Some? <==>
              p == [] || SomeRowReaches(rows, counter, c, p)
  {
    TreeOfGames(rows, counter, c, p);
    TreeOfPaths(rows, counter, c, p);
  }

  lemma {:induction false} TreeOfGames(rows: seq<GameRow>, counter: map<string, nat>, c: Color, p: seq<string>)
    ensures GameIdsAt(Convert(TreeOf(rows, counter, c)), p) == GamesThrough(rows, counter, c, p)
  {
    if |rows| == 0 {
      EmptyNodePaths(p);
    } else {
      var init, row := rows[..|rows| - 1], rows[|rows| - 1];
      TreeOfGames(init, counter, c, p);
      if row.color == c {
        InsertPathMeans(TreeOf(init, counter, c), RecordedPath(row, counter), row.gameId, p);
      }
    }
  }

  lemma {:induction false} TreeOfPaths(rows: seq<GameRow>, counter: map<string, nat>, c: Color, p: seq<string>)
    ensures Resolve(Convert(TreeOf(rows, counter, c)), p).Some? <==>
              p == [] || SomeRowReaches(rows, counter, c, p)
  {
    if |rows| == 0 {
      EmptyNodePaths(p);
    } else {
      var init, row := rows[..|rows| - 1], rows[|rows| - 1];
      TreeOfPaths(init, counter, c, p);
      SomeRowReachesSnoc(rows, counter, c, p);
      if row.color == c {
        InsertPathMeans(TreeOf(init, counter, c), RecordedPath(row, counter), row.gameId, p);
      }
    }
  }

  /** `AddPathMeans` for the raw tree the builder grows. */
  lemma InsertPathMeans(t: RawNode, path: seq<string>, id: int, p: seq<string>)
    ensures GameIdsAt(Convert(InsertPath(t, path, id)), p) ==
              GameIdsAt(Convert(t), p) + (if p < path then {id} else {})
    ensures Resolve(Convert(InsertPath(t, path, id)), p).Some? <==>
              Resolve(Convert(t), p).Some? || p <= path
  {
    ConvertInsertPath(t, path, id);
    AddPathMeans(Convert(t), path, id, p);
  }

  /** Every key of the built game table is a canonical decimal id, and
      every series only lists games that have a table entry. */
  lemma BuildWellFormed(rows: seq<GameRow>, counter: map<string, nat>)
    ensures CanonicalKeys(Build(rows, counter).games)
    ensures forall name, id :: name in Build(rows, counter).series && id in Build(rows, counter).series[name] ==>
              GameKey(id) in Build(rows, counter).games
  {
    var doc := Build(rows, counter);
    GamesOfMeans(rows);
    SeriesOfMeans(rows);
    forall k | k in doc.games ensures ParseInt(k).Some? && GameKey(ParseInt(k).value) == k {
      var i :| 0 <= i < |rows| && GameKey(rows[i].gameId) == k;
      ParseIntToString(rows[i].gameId);
    }
    forall name, id | name in doc.series && id in doc.series[name] ensures GameKey(id) in doc.games {
      SeriesIdsFromRows(rows, name, id);
      var i :| 0 <= i < |rows| && rows[i].gameId == id;
      assert GameKey(id) in GameKeys(rows);
    }
  }

  lemma {:induction false} SeriesIdsFromRows(rows: seq<GameRow>, name: string, id: int)
    requires id in SeriesIds(rows, name)
    ensures exists i :: 0 <= i < |rows| && rows[i].gameId == id && rows[i].seriesName == name
  {
    var init := rows[..|rows| - 1];
    if id in SeriesIds(init, name) {
      SeriesIdsFromRows(init, name, id);
      var i :| 0 <= i < |init| && init[i].gameId == id && init[i].seriesName == name;
      assert rows[i] == init[i];
    } else {
      assert rows[|rows| - 1].gameId == id && rows[|rows| - 1].seriesName == name;
    }
  }

  /** Loading the built book gives a well-formed book whose "Any Series" is
      exactly the set of the rows' game ids. */
  lemma BuiltBookLoads(rows: seq<GameRow>, counter: map<string, nat>)
    ensures WellFormed(Load(Build(rows, counter)))
    ensures Load(Build(rows, counter)).series[AnySeries] == set i | 0 <= i < |rows| :: rows[i].gameId
  {
    var doc := Build(rows, counter);
    BuildWellFormed(rows, counter);
    LoadWellFormed(doc);
    GamesOfMeans(rows);
    var ids := set i | 0 <= i < |rows| :: rows[i].gameId;
    assert doc.games.Keys == set id | id in ids :: GameKey(id);
    AnySeriesIsGameIds(doc, ids);
  }
}

=== FILE: decimal.dfy ===
/** Decimal text for integers: Python's `str(int)` / JavaScript's
    `String(n)` (identical for integers) and JavaScript's `parseInt`, which
    the front end applies to the keys of the `games` table. */
module Decimal {
  import opened Options

  predicate IsDigit(c: char) {
    '0' <= c <= '9'
  }

  predicate AllDigits(s: string) {
    forall k :: 0 <= k < |s| ==> IsDigit(s[k])
  }

  function DigitChar(d: nat): (c: char)
    requires d < 10
    ensures IsDigit(c) && c as int - '0' as int == d
  {
    ('0' as int + d) as char
  }

  function Pow10(n: nat): (p: nat)
    ensures p >= 1
  {
    if n == 0 then 1 else 10 * Pow10(n - 1)
  }

  /** The number a string of decimal digits denotes; "" denotes 0. */
  function Value(ds: string): nat
    requires AllDigits(ds)
  {
    if |ds| == 0 then 0
    else 10 * Value(ds[..|ds| - 1]) + (ds[|ds| - 1] as int - '0' as int)
  }

  lemma AllDigitsAppend(a: string, b: string)
    requires AllDigits(a) && AllDigits(b)
    ensures AllDigits(a + b)
  {
    var ab := a + b;
    forall k | 0 <= k < |ab| ensures IsDigit(ab[k]) {
      if k < |a| { assert ab[k] == a[k]; } else { assert ab[k] == b[k - |a|]; }
    }
  }

  /** Appending one digit to both sides of a shifted sum. */
  lemma ShiftStep(va: int, vb: int, p: int, d: int)
    ensures 10 * (va * p + vb) + d == va * (10 * p) + (10 * vb + d)
  {
  }

  /** Reading `a + b` is reading `a`, shifting by |b| places and adding `b`. */
  lemma {:induction false} ValueAppend(a: string, b: string)
    requires AllDigits(a) && AllDigits(b)
    ensures AllDigits(a + b)
    ensures Value(a + b) == Value(a) * Pow10(|b|) + Value(b)
    decreases |b|
  {
    AllDigitsAppend(a, b);
    var ab := a + b;
    if |b| == 0 {
      assert ab == a;
    } else {
      var b' := b[..|b| - 1];
      var d := b[|b| - 1] as int - '0' as int;
      assert ab[..|ab| - 1] == a + b';
      assert ab[|ab| - 1] == b[|b| - 1];
      ValueAppend(a, b');
      var va, vb, p := Value(a), Value(b'), Pow10(|b'|);
      assert Value(ab) == 10 * (va * p + vb) + d;
      assert Value(b) == 10 * vb + d;
      assert Pow10(|b|) == 10 * p;
      ShiftStep(va, vb, p, d);
    }
  }

  /** A string of n digits denotes a number below 10^n. */
  lemma {:induction false} ValueBound(ds: string)
    requires AllDigits(ds)
    ensures Value(ds) < Pow10(|ds|)
    decreases |ds|
  {
    if |ds| > 0 {
      ValueBound(ds[..|ds| - 1]);
    }
  }

  /** The shortest decimal spelling of `n`: no leading zero except "0" itself. */
  function NatToString(n: nat): (s: string)
    ensures |s| >= 1 && AllDigits(s)
    ensures Value(s) == n
    ensures |s| > 1 ==> s[0] != '0'
  {
    if n < 10 then [DigitChar(n)]
    else
      var prefix := NatToString(n / 10);
      var s := prefix + [DigitChar(n % 10)];
      assert s[..|s| - 1] == prefix;
      s
  }

  /** Python's `str` and JavaScript's `String` on an integer. */
  function IntToString(n: int): (s: string)
    ensures |s| >= 1
    ensures n >= 0 <==> IsDigit(s[0])
  {
    if n >= 0 then NatToString(n) else "-" + NatToString(-n)
  }

  /** The longest prefix of `s` made of decimal digits. */
  function LeadingDigits(s: string): (d: string)
    ensures AllDigits(d) && d <= s
    ensures |d| < |s| ==> !IsDigit(s[|d|])
  {
    if |s| == 0 || !IsDigit(s[0]) then ""
    else [s[0]] + LeadingDigits(s[1..])
  }

  /** JavaScript's `parseInt` without a radix, on decimal text: an optional
      sign, then the leading run of digits; `None` plays the part of NaN. */
  function ParseInt(s: string): (r: Option<int>)
    ensures r.None? <==> LeadingDigits(if |s| > 0 && (s[0] == '-' || s[0] == '+') then s[1..] else s) == ""
  {
    var negative := |s| > 0 && s[0] == '-';
    var body := if |s| > 0 && (s[0] == '-' || s[0] == '+') then s[1..] else s;
    var ds := LeadingDigits(body);
    if ds == "" then None
    else if negative then Some(0 - Value(ds) as int)
    else Some(Value(ds))
  }

  /** A string made only of digits is its own leading run. */
  lemma {:induction false} LeadingDigitsOfDigits(s: string)
    requires AllDigits(s)
    ensures LeadingDigits(s) == s
    decreases |s|
  {
    if |s| > 0 {
      LeadingDigitsOfDigits(s[1..]);
    }
  }

  /** `parseInt` reads back what `str` wrote, for every integer. */
  lemma ParseIntToString(n: int)
    ensures ParseInt(IntToString(n)) == Some(n)
  {
    var m := if n >= 0 then n else -n;
    LeadingDigitsOfDigits(NatToString(m));
    if n < 0 {
      assert IntToString(n)[1..] == NatToString(m);
    }
  }

  /** Distinct integers have distinct decimal spellings. */
  lemma IntToStringInjective(a: int, b: int)
    requires IntToString(a) == IntToString(b)
    ensures a == b
  {
    ParseIntToString(a);
    ParseIntToString(b);
  }
}

=== FILE: divergence.dfy ===
/** Where a loaded game leaves the opening book (`findDivergencePoint`), and
    where `loadPGN` then puts the cursor. */
module Divergence {
  import opened Options
  import opened Book
  import opened Resolver
  import opened Moves
  import opened History

  /** The outcome of the walk: every move stays in the book, or ply `ply`
      (0-based) is the first that does not. */
  datatype Outcome = InBook | LeavesAt(ply: nat)

  /** `move` is a child of `node` with at least one game of the series. */
  predicate InSeries(node: Node, move: string, series: set<int>) {
    move in node.children && node.children[move].gameIds * series != {}
  }

  /** Ply `i` stays in the book: the first `i` moves lead to a node, and
      the next move from there has games of the series. */
  predicate StaysInBook(root: Node, moves: seq<string>, series: set<int>, i: nat)
    requires i < |moves|
  {
    var here := Resolve(root, moves[..i]);
    here.Some? && InSeries(here.value, moves[i], series)
  }

  /** The first ply at or after `i` that leaves the book. */
  function FirstExit(root: Node, moves: seq<string>, series: set<int>, i: nat): Outcome
    requires i <= |moves|
    decreases |moves| - i
  {
    if i == |moves| then InBook
    else if !StaysInBook(root, moves, series, i) then LeavesAt(i)
    else FirstExit(root, moves, series, i + 1)
  }

  function FindDivergence(root: Node, moves: seq<string>, series: set<int>): Outcome {
    FirstExit(root, moves, series, 0)
  }

  lemma {:induction false} FirstExitMeans(root: Node, moves: seq<string>, series: set<int>, i: nat)
    requires i <= |moves|
    ensures FirstExit(root, moves, series, i) == InBook <==>
              forall j :: i <= j < |moves| ==> StaysInBook(root, moves, series, j)
    ensures forall k: nat :: FirstExit(root, moves, series, i) == LeavesAt(k) <==>
              (i <= k < |moves| && !StaysInBook(root, moves, series, k) &&
               forall j :: i <= j < k ==> StaysInBook(root, moves, series, j))
    decreases |moves| - i
  {
    if i < |moves| && StaysInBook(root, moves, series, i) {
      FirstExitMeans(root, moves, series, i + 1);
    }
  }

  /** The game stays in the book exactly when every ply does, and it leaves
      at ply `k` exactly when `k` is the first ply that does not. */
  lemma FindDivergenceMeans(root: Node, moves: seq<string>, series: set<int>)
    ensures FindDivergence(root, moves, series) == InBook <==>
              forall j :: 0 <= j < |moves| ==> StaysInBook(root, moves, series, j)
    ensures forall k: nat :: FindDivergence(root, moves, series) == LeavesAt(k) <==>
              (k < |moves| && !StaysInBook(root, moves, series, k) &&
               forall j :: 0 <= j < k ==> StaysInBook(root, moves, series, j))
  {
    FirstExitMeans(root, moves, series, 0);
  }

  /** A game that stays in the book ends on a node of the tree. */
  lemma {:induction false} InBookResolves(root: Node, moves: seq<string>, series: set<int>)
    requires FindDivergence(root, moves, series) == InBook
    ensures Resolve(root, moves).Some?
    decreases |moves|
  {
    FindDivergenceMeans(root, moves, series);
    if |moves| > 0 {
      var init := moves[..|moves| - 1];
      var last := moves[|moves| - 1];
      assert StaysInBook(root, moves, series, |moves| - 1);
      assert moves[..|moves| - 1] == init && moves == init + [last];
      ResolveSnoc(root, init, last);
    }
  }

  /** The source's `-1` sentinel: `-1` for no divergence, otherwise the ply
      before the one that leaves the book. */
  function Sentinel(d: Outcome): (r: int)
    ensures r >= -1
    ensures r == -1 <==> d == InBook || d == LeavesAt(0)
  {
    match d
    case InBook => -1
    case LeavesAt(i) => i - 1
  }

  /** The sentinel conflates two outcomes: no divergence and a divergence at
      the very first ply; every other outcome keeps its own value. */
  lemma SentinelConflates(d: Outcome, e: Outcome)
    ensures Sentinel(d) == -1 <==> d == InBook || d == LeavesAt(0)
    ensures Sentinel(d) == Sentinel(e) && Sentinel(d) != -1 ==> d == e
  {
  }

  /** `findDivergencePoint`, loop and all, over the UCI list of the
      history, the root of the user's colour and the series' games. */
  method FindDivergencePoint(root: Node, moves: seq<string>, series: set<int>) returns (r: int)
    ensures r == Sentinel(FindDivergence(root, moves, series))
  {
    FindDivergenceMeans(root, moves, series);
    if |moves| == 0 {
      return -1;
    }
    var node := root;
    var divergencePoint := -1;
    var i := 0;
    while i < |moves|
      invariant 0 <= i <= |moves|
      invariant Resolve(root, moves[..i]) == Some(node)
      invariant forall j :: 0 <= j < i ==> StaysInBook(root, moves, series, j)
    {
      var move := moves[i];
      assert moves[..i + 1] == moves[..i] + [move];
      ResolveSnoc(root, moves[..i], move);
      if move in node.children && node.children[move].gameIds * series != {} {
        node := node.children[move];
        i := i + 1;
      } else {
        divergencePoint := i;
        assert !StaysInBook(root, moves, series, i);
        break;
      }
    }
    if divergencePoint == -1 {
      return -1;
    }
    return divergencePoint - 1;
  }

  // ---------------------------------------------------------------------
  // Where `loadPGN` leaves the cursor

  /** After `loadPGN` plays every move the cursor is on the last one. */
  function Loaded(history: seq<Move>): (c: Cursor)
    ensures Valid(c) && c.moves == history
  {
    Cursor(history, |history| - 1)
  }

  /** `loadPGN` as written: go to the sentinel's ply, or to the end when it
      is -1 — which includes a game whose first move is already off the
      book. */
  function LoadPgnAsWritten(history: seq<Move>, d: Outcome): (c: Cursor)
    ensures Valid(c) && c.moves == history
    ensures d == InBook || d == LeavesAt(0) ==> c.pos == |history| - 1
    ensures d.LeavesAt? && 0 < d.ply <= |history| ==> c.pos == d.ply - 1
  {
    var p := Sentinel(d);
    if p != -1 then GoToMove(Loaded(history), p) else GoToEnd(Loaded(history))
  }

  /** `loadPGN` as evidently intended: the last position still in the book,
      which is the start when the first move already leaves it. */
  function LoadPgn(history: seq<Move>, d: Outcome): (c: Cursor)
    ensures Valid(c) && c.moves == history
  {
    match d
    case InBook => GoToEnd(Loaded(history))
    case LeavesAt(i) => if i == 0 then GoToStart(Loaded(history)) else GoToMove(Loaded(history), i - 1)
  }

  /** After loading a game, the cursor is on the last ply that is still in
      the book: every ply up to it stays in, and the next one (if any)
      leaves. */
  lemma LoadPgnStopsAtLastBookPly(root: Node, history: seq<Move>, series: set<int>)
    ensures var ucis := UciMoves(history, |history| - 1);
            var c := LoadPgn(history, FindDivergence(root, ucis, series));
            |ucis| == |history| &&
            (forall j :: 0 <= j <= c.pos ==> StaysInBook(root, ucis, series, j)) &&
            (c.pos + 1 < |history| ==> !StaysInBook(root, ucis, series, c.pos + 1))
  {
    var ucis := UciMoves(history, |history| - 1);
    FindDivergenceMeans(root, ucis, series);
  }

  /** The two agree except when the very first move leaves the book. */
  lemma LoadPgnAgreesAwayFromFirstPly(history: seq<Move>, d: Outcome)
    requires d != LeavesAt(0)
    ensures LoadPgnAsWritten(history, d) == LoadPgn(history, d)
  {
  }

  /** As written, a game whose first move is off the book is shown at its
      last move, as if it had never left the book; the intended cursor is
      the start. */
  lemma FirstPlyExitJumpsToEnd(history: seq<Move>)
    requires |history| > 0
    ensures LoadPgnAsWritten(history, LeavesAt(0)).pos == |history| - 1
    ensures LoadPgnAsWritten(history, LeavesAt(0)) == LoadPgnAsWritten(history, InBook)
    ensures LoadPgn(history, LeavesAt(0)).pos == -1
  {
  }
}

=== FILE: history.dfy ===
/** The move-history cursor: `moveHistory` plus `currentPosition`, where
    -1 stands for the starting position, and the navigation that moves the
    cursor (`onDrop`, `handlePromotion`, `addMoveToHistory`, `goToMove` and
    its shorthands, `startNewGame`, `updateNavigationButtons`). */
module History {
  import opened Options
  import opened Moves

  datatype Cursor = Cursor(moves: seq<Move>, pos: int)

  /** The cursor is on a played move, or on the start (-1). */
  predicate Valid(c: Cursor) {
    -1 <= c.pos <= |c.moves| - 1
  }

  const Initial: Cursor := Cursor([], -1)

  /** `addMoveToHistory`: push the move and put the cursor on it. */
  function Append(c: Cursor, m: Move): (r: Cursor)
    ensures Valid(r)
    ensures |r.moves| == |c.moves| + 1
    ensures r.moves[..|c.moves|] == c.moves && r.moves[|c.moves|] == m
    ensures r.pos == |r.moves| - 1
  {
    Cursor(c.moves + [m], |c.moves|)
  }

  /** The truncation before a new move: a cursor behind the last move drops
      the later moves (`moveHistory.slice(0, currentPosition + 1)`). */
  function Truncate(c: Cursor): (r: Cursor)
    ensures r.pos == c.pos
    ensures Valid(c) ==> r.moves == c.moves[..c.pos + 1]
    ensures !Valid(c) && c.pos >= |c.moves| - 1 ==> r == c
  {
    if c.pos < |c.moves| - 1 then c.(moves := c.moves[..SliceEnd(|c.moves|, c.pos + 1)]) else c
  }

  /** A move played on the board (`onDrop`, once the library has accepted
      it): it replaces everything after the cursor and becomes the current
      move. */
  function PlayMove(c: Cursor, m: Move): (r: Cursor)
    ensures Valid(r)
    ensures Valid(c) ==> r.moves == c.moves[..c.pos + 1] + [m] && r.pos == c.pos + 1
  {
    Append(Truncate(c), m)
  }

  /** The history as the page can store it: each entry is what the chess
      library's `move` returned, `null` (`None`) for an illegal move. */
  datatype RawCursor = RawCursor(entries: seq<Option<Move>>, pos: int)

  /** The stored entries of a history of accepted moves. */
  function Entries(moves: seq<Move>): (r: seq<Option<Move>>)
    ensures |r| == |moves|
    ensures forall i :: 0 <= i < |r| ==> r[i] == Some(moves[i])
  {
    seq(|moves|, i requires 0 <= i < |moves| => Some(moves[i]))
  }

  /** `handlePromotion` as written: the later moves are dropped first, and
      then whatever the library returned for the chosen piece is pushed, an
      illegal request's `null` included. The dialog is opened for any pawn
      dropped on the last rank, with no legality check beforehand. */
  function PromoteAsWritten(c: Cursor, result: Option<Move>): (r: RawCursor)
    ensures Valid(c) ==> r.entries == Entries(c.moves[..c.pos + 1]) + [result]
    ensures r.pos == |r.entries| - 1
  {
    var t := Truncate(c);
    RawCursor(Entries(t.moves) + [result], |t.moves|)
  }

  /** `handlePromotion` as evidently intended: an illegal promotion leaves
      the history and the cursor unchanged, and a legal one is played like
      any other move. */
  function Promote(c: Cursor, result: Option<Move>): (r: Cursor)
    ensures result.None? ==> r == c
    ensures Valid(c) ==> Valid(r)
    ensures Valid(c) && result.Some? ==> r.moves == c.moves[..c.pos + 1] + [result.value] && r.pos == c.pos + 1
  {
    match result
    case None => c
    case Some(m) => PlayMove(c, m)
  }

  /** On a legal promotion the two versions store the same history. */
  lemma PromoteAgreesOnLegalMoves(c: Cursor, m: Move)
    requires Valid(c)
    ensures PromoteAsWritten(c, Some(m)) == RawCursor(Entries(Promote(c, Some(m)).moves), Promote(c, Some(m)).pos)
  {
  }

  /** As written, an illegal promotion from behind the last move throws the
      later moves away and leaves the cursor on a `null` entry; the intended
      version changes nothing. The page then fails: `addMoveToHistory` calls
      `updateMoveList`, which reads the piece of the `null` entry and throws,
      so the dialog is never hidden nor the pending promotion cleared, and
      every later redraw of the move list throws too. That failure is not
      part of this model. */
  lemma IllegalPromotionLosesMoves(c: Cursor)
    requires Valid(c) && c.pos < |c.moves| - 1
    ensures var r := PromoteAsWritten(c, None);
            && |r.entries| == c.pos + 2 <= |c.moves|
            && r.entries[r.pos] == None
            && r.entries[..r.pos] == Entries(c.moves[..c.pos + 1])
    ensures Promote(c, None) == c
  {
  }

  /** `goToMove(index)`: ignored unless the index names a played move. */
  function GoToMove(c: Cursor, index: int): (r: Cursor)
    ensures r.moves == c.moves
    ensures Valid(c) ==> Valid(r)
    ensures r.pos == (if 0 <= index < |c.moves| then index else c.pos)
  {
    if index < 0 || index >= |c.moves| then c else c.(pos := index)
  }

  /** `goToStart`. */
  function GoToStart(c: Cursor): (r: Cursor)
    ensures r.moves == c.moves && Valid(r) && r.pos == -1
  {
    c.(pos := -1)
  }

  /** `goToPreviousMove` as the source writes it: from the first move it
      asks `goToMove(-1)`, which ignores the request. */
  function GoToPreviousAsWritten(c: Cursor): (r: Cursor)
    ensures r.moves == c.moves
    ensures Valid(c) ==> Valid(r)
    ensures Valid(c) && c.pos > 0 ==> r.pos == c.pos - 1
    ensures c.pos <= 0 ==> r == c
  {
    if c.pos > -1 then GoToMove(c, c.pos - 1) else c
  }

  /** `goToPreviousMove` as evidently intended: one move back, and from the
      first move back to the start. */
  function GoToPrevious(c: Cursor): (r: Cursor)
    ensures r.moves == c.moves
    ensures Valid(c) ==> Valid(r)
    ensures Valid(c) && c.pos > -1 ==> r.pos == c.pos - 1
  {
    if c.pos > 0 then GoToMove(c, c.pos - 1)
    else if c.pos == 0 then GoToStart(c)
    else c
  }

  /** `goToNextMove`. */
  function GoToNext(c: Cursor): (r: Cursor)
    ensures r.moves == c.moves
    ensures Valid(c) ==> Valid(r)
    ensures Valid(c) && c.pos < |c.moves| - 1 ==> r.pos == c.pos + 1
  {
    if c.pos < |c.moves| - 1 then GoToMove(c, c.pos + 1) else c
  }

  /** `goToEnd`. */
  function GoToEnd(c: Cursor): (r: Cursor)
    ensures r.moves == c.moves
    ensures Valid(c) ==> Valid(r)
    ensures |c.moves| > 0 ==> r.pos == |c.moves| - 1
  {
    if |c.moves| > 0 then GoToMove(c, |c.moves| - 1) else c
  }

  /** `startNewGame`. */
  function StartNewGame(c: Cursor): (r: Cursor)
    ensures Valid(r) && |r.moves| == 0 && r.pos == -1
  {
    Initial
  }

  /** Which navigation buttons are greyed out. */
  datatype NavButtons = NavButtons(startDisabled: bool, prevDisabled: bool, nextDisabled: bool, endDisabled: bool)

  /** `updateNavigationButtons`. */
  function Buttons(c: Cursor): (b: NavButtons)
    ensures b.startDisabled == b.prevDisabled && b.nextDisabled == b.endDisabled
    ensures |c.moves| == 0 ==> b.prevDisabled && b.nextDisabled
    ensures Valid(c) && |c.moves| > 0 ==> (b.prevDisabled <==> c.pos == -1) && (b.nextDisabled <==> c.pos == |c.moves| - 1)
  {
    NavButtons(
      |c.moves| == 0 || c.pos == -1,
      |c.moves| == 0 || c.pos == -1,
      |c.moves| == 0 || c.pos == |c.moves| - 1,
      |c.moves| == 0 || c.pos == |c.moves| - 1)
  }

  /** Each button is greyed out exactly when its action would change
      nothing (with the intended `goToPreviousMove`). */
  lemma ButtonsMatchActions(c: Cursor)
    requires Valid(c)
    ensures Buttons(c).startDisabled <==> GoToStart(c) == c
    ensures Buttons(c).prevDisabled <==> GoToPrevious(c) == c
    ensures Buttons(c).nextDisabled <==> GoToNext(c) == c
    ensures Buttons(c).endDisabled <==> GoToEnd(c) == c
  {
  }

  /** Stepping back undoes stepping forward and vice versa (with the
      intended `goToPreviousMove`). */
  lemma PreviousNextInverse(c: Cursor)
    requires Valid(c)
    ensures !Buttons(c).nextDisabled ==> GoToPrevious(GoToNext(c)) == c
    ensures !Buttons(c).prevDisabled ==> GoToNext(GoToPrevious(c)) == c
  {
  }

  /** The source's `goToPreviousMove` does nothing on the first move even
      though the previous-move button is enabled there, so the start can
      only be reached with the start button. */
  lemma PreviousAsWrittenStuckOnFirstMove(c: Cursor)
    requires Valid(c) && c.pos == 0
    ensures !Buttons(c).prevDisabled
    ensures GoToPreviousAsWritten(c) == c
    ensures GoToPrevious(c).pos == -1
  {
  }

  /** As written, stepping forward from the start and back again does not
      return to the start: the cursor stays on the first move. */
  lemma ForwardBackAsWrittenFromStart(c: Cursor)
    requires Valid(c) && c.pos == -1 && |c.moves| > 0
    ensures !Buttons(c).nextDisabled
    ensures GoToPreviousAsWritten(GoToNext(c)).pos == 0
    ensures GoToPrevious(GoToNext(c)) == c
  {
  }

  /** Away from the first move the two versions agree. */
  lemma PreviousAgreesAwayFromFirstMove(c: Cursor)
    requires Valid(c) && c.pos != 0
    ensures GoToPreviousAsWritten(c) == GoToPrevious(c)
  {
  }

  /** Every operation keeps the cursor inside the history. */
  lemma OperationsKeepValid(c: Cursor, m: Move, index: int)
    requires Valid(c)
    ensures Valid(PlayMove(c, m)) && Valid(GoToMove(c, index)) && Valid(GoToStart(c))
    ensures Valid(GoToPrevious(c)) && Valid(GoToNext(c)) && Valid(GoToEnd(c)) && Valid(StartNewGame(c))
  {
  }
}

=== FILE: ingest.dfy ===
/** The pure helpers of the ingest pipeline (`chess_prj.py`): video and
    playlist ids from screenshot file names, the last-four-digits test that
    ties an OCR'd name to a rating, bounding-box aggregation, which games
    are kept, who played which colour, the Elo estimates and the
    "A vs B" label. */
module Ingest {
  import opened Options
  import opened Decimal
  import opened Book

  // ---------------------------------------------------------------------
  // File names

  /** `os.path.basename`: everything after the last '/'. */
  function Basename(path: string): (b: string)
    ensures |b| <= |path| && b == path[|path| - |b|..]
    ensures '/' !in b
    ensures |b| < |path| ==> path[|path| - |b| - 1] == '/'
  {
    if |path| == 0 || path[|path| - 1] == '/' then ""
    else
      var b := Basename(path[..|path| - 1]) + [path[|path| - 1]];
      assert path[..|path| - 1][|path| - |b|..] + [path[|path| - 1]] == path[|path| - |b|..];
      b
  }

  /** Python's `s[lo:hi]` for non-negative bounds: both ends clamp to the
      length, and a reversed range is empty. */
  function Slice(s: string, lo: nat, hi: nat): (r: string)
    ensures |r| == (if hi <= |s| then hi else |s|) - (if lo <= |s| then lo else |s|) || (|r| == 0 && lo >= hi)
    ensures lo <= hi <= |s| ==> r == s[lo..hi]
  {
    var h := if hi <= |s| then hi else |s|;
    var l := if lo <= h then lo else h;
    s[l..h]
  }

  /** `get_yt_video_id`: the eleven characters at offset 39 of the base name. */
  function VideoId(path: string): (r: string)
    ensures |r| <= 11
    ensures |Basename(path)| >= 50 ==> r == Basename(path)[39..50]
  {
    Slice(Basename(path), 39, 39 + 11)
  }

  /** `get_yt_playlist_id`: the first 34 characters of the base name. */
  function PlaylistId(path: string): (r: string)
    ensures |r| <= 34
    ensures |Basename(path)| >= 34 ==> r == Basename(path)[..34]
  {
    Slice(Basename(path), 0, 34)
  }

  /** Both ids are short: at most 11 and 34 characters, exactly that long
      when the base name reaches that far, and empty for the video id when
      the base name is at most 39 characters long. */
  lemma IdLengths(path: string)
    ensures |VideoId(path)| <= 11 && (|Basename(path)| >= 50 <==> |VideoId(path)| == 11)
    ensures |Basename(path)| <= 39 ==> VideoId(path) == ""
    ensures |PlaylistId(path)| == if |Basename(path)| >= 34 then 34 else |Basename(path)|
  {
  }

  /** A file whose name has no '/' and is at least 50 characters long,
      in any directory, yields its first 34 characters as the playlist id
      and characters 39 to 49 as the video id. */
  lemma IdsOfFileName(dir: string, name: string)
    requires |name| >= 50 && '/' !in name
    ensures PlaylistId(dir + "/" + name) == name[..34]
    ensures VideoId(dir + "/" + name) == name[39..50]
  {
    BasenameOfName(dir + "/", name);
  }

  /** The base name of a directory (ending in '/') joined with a name
      without '/' is that name. */
  lemma {:induction false} BasenameOfName(dir: string, name: string)
    requires |dir| > 0 && dir[|dir| - 1] == '/'
    requires '/' !in name
    ensures Basename(dir + name) == name
    decreases |name|
  {
    if |name| == 0 {
      assert dir + name == dir;
    } else {
      var init := name[..|name| - 1];
      assert (dir + name)[..|dir + name| - 1] == dir + init;
      assert (dir + name)[|dir + name| - 1] == name[|name| - 1];
      assert '/' !in init by {
        forall k | 0 <= k < |init| ensures init[k] != '/' {
          assert init[k] == name[k];
        }
      }
      assert name[|name| - 1] in name;
      BasenameOfName(dir, init);
      assert init + [name[|name| - 1]] == name;
    }
  }

  // ---------------------------------------------------------------------
  // The last four digits

  /** `re.sub(r"\D", "", s)` on ASCII text: the decimal digits of `s`, in order. */
  function Digits(s: string): (d: string)
    ensures AllDigits(d) && |d| <= |s|
  {
    if |s| == 0 then ""
    else Digits(s[..|s| - 1]) + (if IsDigit(s[|s| - 1]) then [s[|s| - 1]] else [])
  }

  lemma {:induction false} DigitsAppend(a: string, b: string)
    ensures Digits(a + b) == Digits(a) + Digits(b)
    decreases |b|
  {
    if |b| == 0 {
      assert a + b == a;
    } else {
      var b' := b[..|b| - 1];
      assert (a + b)[..|a + b| - 1] == a + b';
      assert (a + b)[|a + b| - 1] == b[|b| - 1];
      DigitsAppend(a, b');
    }
  }

  lemma {:induction false} DigitsOfDigits(s: string)
    requires AllDigits(s)
    ensures Digits(s) == s
    decreases |s|
  {
    if |s| > 0 {
      DigitsOfDigits(s[..|s| - 1]);
      assert s == s[..|s| - 1] + [s[|s| - 1]];
    }
  }

  /** `extract_last4_digits`: the number the last four digits spell (all of
      them when there are fewer), and 0 when there is no digit. */
  function ExtractLast4(s: string): (r: nat)
    ensures r <= 9999
  {
    var ds := Digits(s);
    var cut := if |ds| < 4 then 0 else |ds| - 4;
    var last := ds[cut..];
    AllDigitsSlice(ds, cut, |ds|);
    ValueBound(last);
    SmallPow10(|last|);
    if |last| > 0 then Value(last) else 0
  }

  /** The last four digits are the number all the digits spell, modulo 10000. */
  lemma Last4IsValueMod(s: string)
    ensures ExtractLast4(s) == Value(Digits(s)) % 10000
  {
    var ds := Digits(s);
    var cut := if |ds| < 4 then 0 else |ds| - 4;
    var front, last := ds[..cut], ds[cut..];
    assert ds == front + last;
    AllDigitsSlice(ds, 0, cut);
    AllDigitsSlice(ds, cut, |ds|);
    ValueBound(last);
    SmallPow10(|last|);
    if cut == 0 {
      assert front == "";
    } else {
      ValueAppend(front, last);
      ModShift(Value(front), Value(last));
    }
  }

  lemma AllDigitsSlice(s: string, lo: nat, hi: nat)
    requires AllDigits(s) && lo <= hi <= |s|
    ensures AllDigits(s[lo..hi])
  {
    forall k | 0 <= k < hi - lo ensures IsDigit(s[lo..hi][k]) {
      assert s[lo..hi][k] == s[lo + k];
    }
  }

  lemma SmallPow10(n: nat)
    requires n <= 4
    ensures Pow10(n) <= 10000 && (n == 4 ==> Pow10(n) == 10000)
  {
    assert Pow10(0) == 1 && Pow10(1) == 10 && Pow10(2) == 100 && Pow10(3) == 1000 && Pow10(4) == 10000;
  }

  lemma ModShift(a: nat, b: nat)
    requires b < 10000
    ensures (a * 10000 + b) % 10000 == b
  {
  }

  /** A score matrix as nested rows: `M[i][j]` scores x-string `i` against
      y-string `j`. */
  predicate Shaped(m: seq<seq<real>>, rows: nat, cols: nat) {
    |m| == rows && forall i :: 0 <= i < |m| ==> |m[i]| == cols
  }

  /** `enforce_last4_agree`: a score survives where the two strings end in
      the same four digits, and becomes 0 elsewhere. */
  function EnforceLast4Agree(m: seq<seq<real>>, xs: seq<string>, ys: seq<string>): (r: seq<seq<real>>)
    requires Shaped(m, |xs|, |ys|)
    ensures Shaped(r, |xs|, |ys|)
    ensures forall i, j :: 0 <= i < |xs| && 0 <= j < |ys| ==>
              r[i][j] == (if ExtractLast4(xs[i]) == ExtractLast4(ys[j]) then m[i][j] else 0.0)
  {
    seq(|xs|, i requires 0 <= i < |xs| =>
      seq(|ys|, j requires 0 <= j < |ys| =>
        if ExtractLast4(xs[i]) == ExtractLast4(ys[j]) then m[i][j] else 0.0))
  }

  /** Applying the mask twice is applying it once, and a surviving non-zero
      score always joins two strings with the same last four digits. */
  lemma EnforceLast4AgreeIdempotent(m: seq<seq<real>>, xs: seq<string>, ys: seq<string>)
    requires Shaped(m, |xs|, |ys|)
    ensures EnforceLast4Agree(EnforceLast4Agree(m, xs, ys), xs, ys) == EnforceLast4Agree(m, xs, ys)
    ensures forall i, j :: 0 <= i < |xs| && 0 <= j < |ys| && EnforceLast4Agree(m, xs, ys)[i][j] != 0.0 ==>
              ExtractLast4(xs[i]) == ExtractLast4(ys[j])
  {
    var once := EnforceLast4Agree(m, xs, ys);
    var twice := EnforceLast4Agree(once, xs, ys);
    forall i | 0 <= i < |xs| ensures twice[i] == once[i] {
      assert forall j :: 0 <= j < |ys| ==> twice[i][j] == once[i][j];
    }
  }

  // ---------------------------------------------------------------------
  // Bounding boxes

  datatype Point = Point(x: int, y: int)

  function Flatten(boxes: seq<seq<Point>>): seq<Point> {
    if |boxes| == 0 then [] else Flatten(boxes[..|boxes| - 1]) + boxes[|boxes| - 1]
  }

  function MinX(ps: seq<Point>): int requires |ps| > 0 {
    if |ps| == 1 then ps[0].x else var m := MinX(ps[1..]); if ps[0].x < m then ps[0].x else m
  }
  function MaxX(ps: seq<Point>): int requires |ps| > 0 {
    if |ps| == 1 then ps[0].x else var m := MaxX(ps[1..]); if ps[0].x > m then ps[0].x else m
  }
  function MinY(ps: seq<Point>): int requires |ps| > 0 {
    if |ps| == 1 then ps[0].y else var m := MinY(ps[1..]); if ps[0].y < m then ps[0].y else m
  }
  function MaxY(ps: seq<Point>): int requires |ps| > 0 {
    if |ps| == 1 then ps[0].y else var m := MaxY(ps[1..]); if ps[0].y > m then ps[0].y else m
  }

  /** The x and y bounds are attained by some point and bound every point. */
  lemma {:induction false} BoundsMeans(ps: seq<Point>)
    requires |ps| > 0
    ensures forall k :: 0 <= k < |ps| ==>
              MinX(ps) <= ps[k].x <= MaxX(ps) && MinY(ps) <= ps[k].y <= MaxY(ps)
    ensures exists k :: 0 <= k < |ps| && ps[k].x == MinX(ps)
    ensures exists k :: 0 <= k < |ps| && ps[k].x == MaxX(ps)
    ensures exists k :: 0 <= k < |ps| && ps[k].y == MinY(ps)
    ensures exists k :: 0 <= k < |ps| && ps[k].y == MaxY(ps)
  {
    if |ps| > 1 {
      var rest := ps[1..];
      BoundsMeans(rest);
      assert forall k :: 1 <= k < |ps| ==> ps[k] == rest[k - 1];
      var a :| 0 <= a < |rest| && rest[a].x == MinX(rest);
      var b :| 0 <= b < |rest| && rest[b].x == MaxX(rest);
      var c :| 0 <= c < |rest| && rest[c].y == MinY(rest);
      var d :| 0 <= d < |rest| && rest[d].y == MaxY(rest);
      assert ps[a + 1].x == MinX(rest) && ps[b + 1].x == MaxX(rest);
      assert ps[c + 1].y == MinY(rest) && ps[d + 1].y == MaxY(rest);
    }
  }

  /** `agg_bboxes`: the box around every corner of every box of a group,
      as the corners left-top, right-top, right-bottom, left-bottom (image
      coordinates: y grows downwards). No points, no box: numpy refuses the
      maximum of an empty array. */
  function AggBboxes(boxes: seq<seq<Point>>): (r: Option<seq<Point>>)
    ensures r.None? <==> |Flatten(boxes)| == 0
    ensures r.Some? ==> (|r.value| == 4 &&
              r.value[0].x == r.value[3].x <= r.value[1].x == r.value[2].x &&
              r.value[0].y == r.value[1].y <= r.value[2].y == r.value[3].y)
  {
    var ps := Flatten(boxes);
    if |ps| == 0 then None
    else
      BoundsMeans(ps);
      var left, right, top, bottom := MinX(ps), MaxX(ps), MinY(ps), MaxY(ps);
      Some([Point(left, top), Point(right, top), Point(right, bottom), Point(left, bottom)])
  }

  /** Every input point lies in the aggregated box, and the box is the
      smallest such: each of its sides touches some input point. */
  lemma AggBboxesEncloses(boxes: seq<seq<Point>>)
    requires |Flatten(boxes)| > 0
    ensures var ps, b := Flatten(boxes), AggBboxes(boxes).value;
            (forall k :: 0 <= k < |ps| ==> b[0].x <= ps[k].x <= b[2].x && b[0].y <= ps[k].y <= b[2].y) &&
            (exists k :: 0 <= k < |ps| && ps[k].x == b[0].x) &&
            (exists k :: 0 <= k < |ps| && ps[k].x == b[2].x) &&
            (exists k :: 0 <= k < |ps| && ps[k].y == b[0].y) &&
            (exists k :: 0 <= k < |ps| && ps[k].y == b[2].y)
  {
    BoundsMeans(Flatten(boxes));
  }

  // ---------------------------------------------------------------------
  // Which games, which colour, which ratings

  /** The FEN of the standard starting position. */
  const StartingFen: string := "rnbqkbnr/pppppppp/8/8/8/8/PPPPPPPP/RNBQKBNR w KQkq - 0 1"

  /** The position a game starts from: a missing or empty `initial_setup`
      means the standard start. */
  function StartPosition(initialSetup: Option<string>): (r: string)
    ensures r != ""
    ensures initialSetup.Some? && initialSetup.value != "" ==> r == initialSetup.value
  {
    if initialSetup == None || initialSetup == Some("") then StartingFen else initialSetup.value
  }

  /** A game is skipped when its `initial_setup` is neither missing, empty,
      nor the standard start: exactly the games that do not begin from the
      standard position. */
  predicate Skipped(initialSetup: Option<string>): (r: bool)
    ensures r <==> StartPosition(initialSetup) != StartingFen
  {
    !(initialSetup == None || initialSetup == Some("") || initialSetup == Some(StartingFen))
  }

  /** The PGN headers the colour logic reads. */
  datatype Headers = Headers(white: string, black: string, whiteElo: int, blackElo: int)

  /** The user's side of a game. */
  datatype Sides = Sides(color: Color, playerEndElo: int, opponentEndElo: int, opponent: string)

  /** The colour assignment of `make_games_df`; `None` where the source's
      assertion fails because the user is on neither side or on both. */
  function AssignColors(username: string, h: Headers): (r: Option<Sides>)
    ensures r.Some? <==> (h.white == username) != (h.black == username)
    ensures r.Some? ==> (r.value.color == White <==> h.white == username)
    ensures r.Some? && r.value.color == White ==>
              r.value == Sides(White, h.whiteElo, h.blackElo, h.black)
    ensures r.Some? && r.value.color == Black ==>
              r.value == Sides(Black, h.blackElo, h.whiteElo, h.white)
  {
    if (h.white == username) == (h.black == username) then None
    else if h.white == username then Some(Sides(White, h.whiteElo, h.blackElo, h.black))
    else Some(Sides(Black, h.blackElo, h.whiteElo, h.white))
  }

  /** Seen from the other player, a game swaps colours, ratings and
      opponent. */
  lemma AssignColorsSymmetric(h: Headers)
    requires h.white != h.black
    ensures var w, b := AssignColors(h.white, h), AssignColors(h.black, h);
            w.Some? && b.Some? &&
            w.value.color == White && b.value.color == Black &&
            w.value.playerEndElo == b.value.opponentEndElo &&
            w.value.opponentEndElo == b.value.playerEndElo &&
            w.value.opponent == h.black && b.value.opponent == h.white
  {
  }

  /** The starting-Elo default for a game with no earlier game to take it
      from. */
  const DefaultStartElo: int := 400

  /** The Elo figures of one game: the start (the end Elo of the previous
      game, or 400), the gain over the game, and the opponent's start
      estimated by assuming they moved by the same amount. */
  datatype Ratings = Ratings(playerStartElo: int, playerEloGain: int, estimatedOpponentStartElo: int)

  function EloFigures(previousEndElo: Option<int>, playerEndElo: int, opponentEndElo: int): (r: Ratings)
    ensures previousEndElo.None? ==> r.playerStartElo == DefaultStartElo
    ensures previousEndElo.Some? ==> r.playerStartElo == previousEndElo.value
    ensures r.playerStartElo + r.playerEloGain == playerEndElo
    ensures r.estimatedOpponentStartElo - opponentEndElo == playerEndElo - r.playerStartElo
  {
    var start := previousEndElo.GetOr(DefaultStartElo);
    var gain := playerEndElo - start;
    Ratings(start, gain, opponentEndElo + gain)
  }

  /** `player_str` / `opponent_str`: "name (elo)". */
  function NameWithElo(name: string, elo: int): (r: string)
    ensures |r| == |name| + 3 + |IntToString(elo)|
    ensures r[..|name|] == name && r[|name|..|name| + 2] == " (" && r[|r| - 1] == ')'
    ensures r[|name| + 2..|r| - 1] == IntToString(elo)
  {
    name + " (" + IntToString(elo) + ")"
  }

  /** `vs_str`: the White player's label first. */
  function VsStr(color: Color, playerStr: string, opponentStr: string): (r: string)
    ensures |r| == |playerStr| + |" vs "| + |opponentStr|
    ensures color == White ==> r[..|playerStr|] == playerStr && r[|r| - |opponentStr|..] == opponentStr
    ensures color == White ==> r[|playerStr|..|playerStr| + 4] == " vs "
    ensures color == Black ==> r[..|opponentStr|] == opponentStr && r[|r| - |playerStr|..] == playerStr
    ensures color == Black ==> r[|opponentStr|..|opponentStr| + 4] == " vs "
  {
    match color
    case White => playerStr + " vs " + opponentStr
    case Black => opponentStr + " vs " + playerStr
  }

  /** The label does not depend on whose side the game is told from: it
      always names White first. */
  lemma VsStrNamesWhiteFirst(p: string, o: string)
    ensures VsStr(White, p, o) == VsStr(Black, o, p)
    ensures VsStr(White, p, o)[..|p|] == p && VsStr(Black, p, o)[..|o|] == o
  {
  }

  /** For a name without digits and a non-negative rating, the last four
      digits of "name (elo)" are the rating modulo 10000: what lets the
      OCR'd name strings be matched to the games. */
  lemma Last4OfNameWithElo(name: string, elo: nat)
    requires Digits(name) == ""
    ensures ExtractLast4(NameWithElo(name, elo)) == elo % 10000
  {
    var ds := NatToString(elo);
    assert IntToString(elo) == ds;
    DigitsAppend(name + " (", ds);
    DigitsAppend(name, " (");
    DigitsAppend(name + " (" + ds, ")");
    assert Digits(" (") == "" by {
      assert " ("[..1] == " ";
      assert Digits(" ") == Digits("") + [];
    }
    assert Digits(")") == Digits("") + [];
    DigitsOfDigits(ds);
    assert NameWithElo(name, elo) == name + " (" + ds + ")";
    assert Digits(NameWithElo(name, elo)) == ds;
    Last4IsValueMod(NameWithElo(name, elo));
  }
}

=== FILE: moves.dfy ===
/** Move records as the rules oracle reports them, their UCI spelling, and
    the move-list text the front end shows (`getUciMoves`, `updateMoveList`). */
module Moves {
  import opened Options
  import opened Text

  /** The verbose move record of the rules oracle: origin and target
      squares, the moving piece letter (lower case, 'p' for a pawn), whether
      it captures, the promotion piece letter, and its SAN text. */
  datatype Move = Move(from: string, to: string, piece: char, captured: bool, promotion: Option<char>, san: string)

  predicate IsFile(c: char) { 'a' <= c <= 'h' }
  predicate IsRank(c: char) { '1' <= c <= '8' }

  predicate IsSquare(s: string) {
    |s| == 2 && IsFile(s[0]) && IsRank(s[1])
  }

  predicate IsPiece(c: char) {
    c in "pnbrqk"
  }

  predicate IsPromotionPiece(c: char) {
    c in "nbrq"
  }

  /** The record shapes the oracle produces. */
  predicate WellFormedMove(m: Move) {
    && IsSquare(m.from) && IsSquare(m.to) && IsPiece(m.piece)
    && (m.promotion.Some? ==> IsPromotionPiece(m.promotion.value))
  }

  /** The UCI spelling of a move: origin, target, lower-cased promotion. */
  function Uci(m: Move): (u: string)
    ensures |u| == |m.from| + |m.to| + (if m.promotion.Some? then 1 else 0)
    ensures u[..|m.from|] == m.from && u[|m.from|..|m.from| + |m.to|] == m.to
    ensures m.promotion.Some? ==> u[|u| - 1] == Lower(m.promotion.value)
  {
    m.from + m.to + (if m.promotion.Some? then [Lower(m.promotion.value)] else [])
  }

  /** The length `Array.prototype.slice(0, end)` keeps of an n-element
      array: a negative end counts from the back, and both ends clamp. */
  function SliceEnd(n: nat, end: int): (k: nat)
    ensures k <= n
    ensures 0 <= end <= n ==> k == end
    ensures end > n ==> k == n
    ensures end < 0 ==> k == (if n + end < 0 then 0 else n + end)
  {
    if end < 0 then (if n + end < 0 then 0 else n + end)
    else if end > n then n
    else end
  }

  /** `getUciMoves`: the UCI strings of `moveHistory.slice(0, pos + 1)`. */
  function UciMoves(history: seq<Move>, pos: int): (r: seq<string>)
    ensures |r| == SliceEnd(|history|, pos + 1)
    ensures forall i :: 0 <= i < |r| ==> r[i] == Uci(history[i])
  {
    seq(SliceEnd(|history|, pos + 1), i requires 0 <= i < SliceEnd(|history|, pos + 1) => Uci(history[i]))
  }

  /** With the cursor inside the history, the walk uses exactly the moves
      up to and including the cursor. */
  lemma UciMovesAtCursor(history: seq<Move>, pos: int)
    requires -1 <= pos < |history|
    ensures |UciMoves(history, pos)| == pos + 1
    ensures UciMoves(history, pos) == UciMoves(history[..pos + 1], pos)
  {
  }

  // Pieces of the move-list text, in the order the source appends them.

  function PieceText(m: Move): string {
    if m.piece != 'p' then [Upper(m.piece)] else ""
  }

  function CaptureText(m: Move): string {
    if m.captured then (if m.piece == 'p' then Substring(m.from, 0, 1) else "") + "x" else ""
  }

  function PromotionText(m: Move): string {
    if m.promotion.Some? then "=" + [Upper(m.promotion.value)] else ""
  }

  function CheckText(m: Move): string {
    if '+' in m.san then "+" else if '#' in m.san then "#" else ""
  }

  /** The text of one move in the move list. */
  function MoveText(m: Move): (r: string)
    ensures WellFormedMove(m) ==> 2 <= |r| <= 7
  {
    PieceText(m) + CaptureText(m) + m.to + PromotionText(m) + CheckText(m)
  }

  /** The text opens with an upper-case piece letter exactly when the
      piece is not a pawn; a pawn move opens with a file letter. */
  lemma MoveTextOpening(m: Move)
    requires WellFormedMove(m)
    ensures |MoveText(m)| >= 2
    ensures 'A' <= MoveText(m)[0] <= 'Z' <==> m.piece != 'p'
    ensures m.piece == 'p' ==> IsFile(MoveText(m)[0])
  {
    var t := MoveText(m);
    if m.piece == 'p' {
      if m.captured {
        assert t[0] == m.from[0];
      } else {
        assert t[0] == m.to[0];
      }
    } else {
      assert t[0] == Upper(m.piece);
    }
  }

  /** After the piece letter (one character, none for a pawn) and the
      capture mark (the pawn's file and 'x', or just 'x') comes the target
      square, then '=' and the upper-case promotion piece, if any. */
  lemma MoveTextTarget(m: Move)
    requires WellFormedMove(m)
    ensures var k := |PieceText(m)| + |CaptureText(m)|;
            && k == (if m.piece != 'p' then 1 else 0) + (if m.captured then (if m.piece == 'p' then 2 else 1) else 0)
            && k + 2 <= |MoveText(m)| && MoveText(m)[k..k + 2] == m.to
            && (m.promotion.Some? ==> k + 4 <= |MoveText(m)| && MoveText(m)[k + 2..k + 4] == "=" + [Upper(m.promotion.value)])
  {
    var pre := PieceText(m) + CaptureText(m);
    var t := MoveText(m);
    assert t == pre + m.to + PromotionText(m) + CheckText(m);
    assert t[|pre|..|pre| + 2] == m.to;
    if m.promotion.Some? {
      assert t[|pre| + 2..|pre| + 4] == PromotionText(m);
    }
  }

  /** An 'x' appears in the text exactly when the move captures. */
  lemma MoveTextCapture(m: Move)
    requires WellFormedMove(m)
    ensures 'x' in MoveText(m) <==> m.captured
  {
    var t := MoveText(m);
    var pre := PieceText(m) + CaptureText(m);
    assert t == pre + m.to + PromotionText(m) + CheckText(m);
    if m.captured {
      assert t[|pre| - 1] == 'x';
    } else {
      assert 'x' !in m.to;
      assert 'x' !in PieceText(m);
      assert 'x' !in PromotionText(m);
      assert 'x' !in CheckText(m);
    }
  }

  /** The text ends in '+' exactly when the SAN contains '+', and in '#'
      exactly when the SAN contains '#' but no '+'. */
  lemma MoveTextCheckMark(m: Move)
    requires WellFormedMove(m)
    ensures MoveText(m)[|MoveText(m)| - 1] == '+' <==> '+' in m.san
    ensures MoveText(m)[|MoveText(m)| - 1] == '#' <==> '#' in m.san && '+' !in m.san
  {
    var t := MoveText(m);
    var body := PieceText(m) + CaptureText(m) + m.to + PromotionText(m);
    assert t == body + CheckText(m);
    assert |body| >= 2;
    if CheckText(m) == "" {
      assert t[|t| - 1] == body[|body| - 1];
      if m.promotion.Some? {
        assert body[|body| - 1] == Upper(m.promotion.value);
      } else {
        assert body[|body| - 1] == m.to[1];
      }
    }
  }

  /** One entry of the move list: its text, its history index, and
      whether it is the highlighted (current) move. */
  datatype MoveCell = MoveCell(text: string, index: nat, active: bool)

  /** One row of the move list: the move number and one or two cells. */
  datatype Row<C> = Row(number: nat, cells: seq<C>)

  function Cell(history: seq<Move>, pos: int, i: nat): MoveCell
    requires i < |history|
  {
    MoveCell(MoveText(history[i]), i, i == pos)
  }

  /** The row layout of `updateMoveList`: walks the cells, opening a
      numbered row at every even index and appending each cell to the
      open row. */
  method Rows<C>(cells: seq<C>) returns (rows: seq<Row<C>>)
    ensures |rows| == (|cells| + 1) / 2
    ensures forall k :: 0 <= k < |rows| ==> rows[k].number == k + 1
    ensures forall k :: 0 <= k < |rows| ==>
              |rows[k].cells| == (if 2 * k + 1 < |cells| then 2 else 1)
    ensures forall i :: 0 <= i < |cells| ==> rows[i / 2].cells[i % 2] == cells[i]
  {
    rows := [];
    var index := 0;
    while index < |cells|
      invariant 0 <= index <= |cells|
      invariant 2 * |rows| - 1 <= index <= 2 * |rows|
      invariant forall k :: 0 <= k < |rows| ==> rows[k].number == k + 1
      invariant forall k :: 0 <= k < |rows| ==>
                  |rows[k].cells| == (if 2 * k + 1 < index then 2 else 1)
      invariant forall k, j :: 0 <= k < |rows| && 0 <= j < |rows[k].cells| ==>
                  rows[k].cells[j] == cells[2 * k + j]
    {
      if index % 2 == 0 {
        rows := rows + [Row(index / 2 + 1, [cells[index]])];
      } else {
        var last := rows[|rows| - 1];
        rows := rows[|rows| - 1 := last.(cells := last.cells + [cells[index]])];
      }
      index := index + 1;
    }
    forall i | 0 <= i < |cells| ensures rows[i / 2].cells[i % 2] == cells[i] {
      assert i == 2 * (i / 2) + i % 2;
    }
  }

  /** `updateMoveList`: one cell per history entry, laid out in numbered
      rows of a White move and the Black reply. */
  method MoveList(history: seq<Move>, pos: int) returns (rows: seq<Row<MoveCell>>)
    ensures |rows| == (|history| + 1) / 2
    ensures forall k :: 0 <= k < |rows| ==> rows[k].number == k + 1
    ensures forall k :: 0 <= k < |rows| ==>
              |rows[k].cells| == (if 2 * k + 1 < |history| then 2 else 1)
    ensures forall i :: 0 <= i < |history| ==>
              rows[i / 2].cells[i % 2] == Cell(history, pos, i)
  {
    var cells := seq(|history|, i requires 0 <= i < |history| => Cell(history, pos, i));
    rows := Rows(cells);
  }

  /** At most one cell is highlighted, and it is the cursor's move. */
  lemma ActiveCellIsCursor(history: seq<Move>, pos: int, i: nat)
    requires i < |history|
    ensures Cell(history, pos, i).active <==> i == pos
    ensures Cell(history, pos, i).index == i
  {
  }
}

=== FILE: options.dfy ===
/** The optional value used wherever the source has `null`, `undefined`,
    a missing key or a caught exception. */
module Options {

  datatype Option<+T> = None | Some(value: T) {

    /** The value, or `default` when there is none. */
    function GetOr(default: T): T {
      match this
      case Some(v) => v
      case None => default
    }
  }
}

=== FILE: resolver.dfy ===
/** Walking a colour's move tree along a list of UCI moves
    (`getNodeAtCurrentPosition`). */
module Resolver {
  import opened Options
  import opened Book

  /** The node reached from `root` by following `moves` in order, or `None`
      as soon as a move is not a child key. */
  function Resolve(root: Node, moves: seq<string>): (r: Option<Node>)
    ensures |moves| == 0 ==> r == Some(root)
    ensures |moves| > 0 && moves[0] !in root.children ==> r == None
  {
    if |moves| == 0 then Some(root)
    else if moves[0] !in root.children then None
    else Resolve(root.children[moves[0]], moves[1..])
  }

  /** One step of the walk: resolving `moves + [m]` is resolving `moves`
      and then taking the child `m`, which is the loop the source runs. */
  lemma {:induction false} ResolveSnoc(root: Node, moves: seq<string>, m: string)
    ensures Resolve(root, moves + [m]) ==
              match Resolve(root, moves)
              case None => None
              case Some(n) => if m in n.children then Some(n.children[m]) else None
    decreases |moves|
  {
    if |moves| == 0 {
      assert moves + [m] == [m];
    } else {
      assert (moves + [m])[1..] == moves[1..] + [m];
      if moves[0] in root.children {
        ResolveSnoc(root.children[moves[0]], moves[1..], m);
      }
    }
  }

  /** Resolving a concatenation resolves the first part, then the second
      from where the first ended. */
  lemma {:induction false} ResolveAppend(root: Node, p: seq<string>, q: seq<string>)
    ensures Resolve(root, p + q) ==
              match Resolve(root, p)
              case None => None
              case Some(n) => Resolve(n, q)
    decreases |p|
  {
    if |p| == 0 {
      assert p + q == q;
    } else {
      assert (p + q)[0] == p[0];
      assert (p + q)[1..] == p[1..] + q;
      if p[0] in root.children {
        ResolveAppend(root.children[p[0]], p[1..], q);
      }
    }
  }

  /** Once the walk has left the tree it never comes back. */
  lemma {:induction false} ResolveNonePersists(root: Node, moves: seq<string>, j: nat)
    requires j <= |moves|
    requires Resolve(root, moves[..j]) == None
    ensures Resolve(root, moves) == None
  {
    assert moves == moves[..j] + moves[j..];
    ResolveAppend(root, moves[..j], moves[j..]);
  }

  /** The walk fails exactly when some move is missing from the node its
      prefix reaches. */
  lemma {:induction false} ResolveNoneIff(root: Node, moves: seq<string>)
    ensures Resolve(root, moves) == None <==>
              exists i :: 0 <= i < |moves| && Resolve(root, moves[..i]).Some? &&
                          moves[i] !in Resolve(root, moves[..i]).value.children
    decreases |moves|
  {
    if |moves| > 0 {
      var init := moves[..|moves| - 1];
      var last := moves[|moves| - 1];
      assert moves == init + [last];
      ResolveSnoc(root, init, last);
      ResolveNoneIff(root, init);
      forall i | 0 <= i < |init| ensures init[..i] == moves[..i] && init[i] == moves[i] { }
      if Resolve(root, moves) == None && Resolve(root, init).Some? {
        assert moves[..|moves| - 1] == init;
      }
      if Resolve(root, moves).Some? {
        forall i | 0 <= i < |moves| && Resolve(root, moves[..i]).Some?
          ensures moves[i] in Resolve(root, moves[..i]).value.children
        {
          assert moves[..i + 1] == moves[..i] + [moves[i]];
          ResolveSnoc(root, moves[..i], moves[i]);
          assert moves == moves[..i + 1] + moves[i + 1..];
          ResolveAppend(root, moves[..i + 1], moves[i + 1..]);
        }
      }
    }
  }

  /** The source's loop, move by move. */
  method ResolveLoop(root: Node, moves: seq<string>) returns (r: Option<Node>)
    ensures r == Resolve(root, moves)
  {
    var node := root;
    var i := 0;
    while i < |moves|
      invariant 0 <= i <= |moves|
      invariant Resolve(root, moves[..i]) == Some(node)
    {
      assert moves[..i + 1] == moves[..i] + [moves[i]];
      ResolveSnoc(root, moves[..i], moves[i]);
      if moves[i] !in node.children {
        ResolveNonePersists(root, moves, i + 1);
        return None;
      }
      node := node.children[moves[i]];
      i := i + 1;
    }
    assert moves[..i] == moves;
    r := Some(node);
  }

  /** The node for the user's side at the current history cursor. */
  function NodeAt(b: OpeningBook, c: Color, uciMoves: seq<string>): Option<Node> {
    Resolve(Root(b, c), uciMoves)
  }
}

=== FILE: sets.dfy ===
/** Taking some element of a finite set, as iterating over a JavaScript
    `Set` or an object's keys does, without fixing the order. */
module Sets {
  lemma HasMember<T>(s: set<T>)
    requires s != {}
    ensures exists y :: y in s
  {
    assert (forall y :: y !in s) ==> s == {};
  }

  /** Some element of a non-empty set: the next one an iteration yields. */
  method Pick<T>(s: set<T>) returns (x: T)
    requires s != {}
    ensures x in s
  {
    HasMember(s);
    x :| x in s;
  }
}

=== FILE: share.dfy ===
/** The share link: the session written by `shareGame` and read back by
    `loadGameFromUrl`, including the comma-joined move string. The base64
    and JSON layers around it are not modelled. */
module Share {
  import opened Options
  import opened Text
  import opened Book
  import opened Moves
  import opened History

  /** What the link records of a move: the squares and the promotion. */
  datatype MoveSpec = MoveSpec(from: string, to: string, promotion: Option<char>)

  function Spec(m: Move): MoveSpec {
    MoveSpec(m.from, m.to, m.promotion)
  }

  /** `${from}${to}${promotion || ''}`. */
  function EncodeMove(m: Move): (s: string)
    ensures |s| == |m.from| + |m.to| + (if m.promotion.Some? then 1 else 0)
    ensures s[..|m.from|] == m.from && s[|m.from|..|m.from| + |m.to|] == m.to
    ensures m.promotion.Some? ==> s[|s| - 1] == m.promotion.value
  {
    m.from + m.to + (if m.promotion.Some? then [m.promotion.value] else "")
  }

  function EncodeMoves(history: seq<Move>): (s: string)
    ensures (forall i :: 0 <= i < |history| ==> Shareable(history[i])) ==> (s == "" <==> |history| == 0)
  {
    Join(seq(|history|, i requires 0 <= i < |history| => EncodeMove(history[i])), ',')
  }

  /** One comma-separated piece: characters 0-2 are the origin, 2-4 the
      target, and a fifth character, if any, the promotion. */
  function DecodeMove(s: string): (r: MoveSpec)
    ensures |s| >= 4 ==> r.from == s[..2] && r.to == s[2..4]
    ensures r.promotion.Some? <==> |s| > 4
  {
    MoveSpec(Substring(s, 0, 2), Substring(s, 2, 4), if |s| > 4 then Some(s[4]) else None)
  }

  /** The pieces that are not empty (`if (moveStr)`), in order. */
  function NonEmpty(parts: seq<string>): (r: seq<string>)
    ensures forall k :: 0 <= k < |r| ==> r[k] != ""
    ensures |r| <= |parts|
    ensures (forall k :: 0 <= k < |parts| ==> parts[k] != "") ==> r == parts
  {
    if |parts| == 0 then []
    else if parts[0] == "" then NonEmpty(parts[1..])
    else [parts[0]] + NonEmpty(parts[1..])
  }

  function DecodeMoves(s: string): (r: seq<MoveSpec>)
    ensures |r| <= |Split(s, ',')|
    ensures s == "" ==> r == []
  {
    var pieces := NonEmpty(Split(s, ','));
    seq(|pieces|, i requires 0 <= i < |pieces| => DecodeMove(pieces[i]))
  }

  /** A move whose squares are two characters, neither containing a comma,
      and whose promotion is not a comma. */
  predicate Shareable(m: Move) {
    && |m.from| == 2 && |m.to| == 2
    && ',' !in m.from && ',' !in m.to
    && m.promotion != Some(',')
  }

  /** Decoding a piece recovers what encoding the move wrote. */
  lemma DecodeEncodeMove(m: Move)
    requires Shareable(m)
    ensures DecodeMove(EncodeMove(m)) == Spec(m)
    ensures EncodeMove(m) != "" && ',' !in EncodeMove(m)
  {
    var s := EncodeMove(m);
    assert s[..2] == m.from;
    assert s[2..4] == m.to;
    assert forall k :: 0 <= k < |s| ==> s[k] != ',' by {
      forall k | 0 <= k < |s| ensures s[k] != ',' {
        if k < 2 { assert s[k] == m.from[k]; assert m.from[k] in m.from; }
        else if k < 4 { assert s[k] == m.to[k - 2]; assert m.to[k - 2] in m.to; }
      }
    }
  }

  /** The move string round-trips: decoding what `shareGame` wrote gives
      back every move's squares and promotion, in order. */
  lemma DecodeEncodeMoves(history: seq<Move>)
    requires forall i :: 0 <= i < |history| ==> Shareable(history[i])
    ensures DecodeMoves(EncodeMoves(history)) == seq(|history|, i requires 0 <= i < |history| => Spec(history[i]))
  {
    var parts := seq(|history|, i requires 0 <= i < |history| => EncodeMove(history[i]));
    forall i | 0 <= i < |history| ensures DecodeMove(parts[i]) == Spec(history[i]) && parts[i] != "" && ',' !in parts[i] {
      DecodeEncodeMove(history[i]);
    }
    if |history| > 0 {
      SplitJoin(parts, ',');
    }
  }

  /** With lower-case promotions, the link spells each move in UCI. */
  lemma EncodeMoveIsUci(m: Move)
    requires m.promotion.Some? ==> 'a' <= m.promotion.value <= 'z'
    ensures EncodeMove(m) == Uci(m)
  {
  }

  /** The rules oracle: given the moves already replayed from the start
      position, the move record a requested move produces, or `None` when
      it is illegal there. */
  type Oracle = (seq<Move>, MoveSpec) -> Option<Move>

  /** Replaying decoded moves: illegal ones are skipped. */
  function Replay(history: seq<Move>, specs: seq<MoveSpec>, oracle: Oracle): (r: seq<Move>)
    ensures |history| <= |r| <= |history| + |specs|
    ensures r[..|history|] == history
    decreases |specs|
  {
    if |specs| == 0 then history
    else
      match oracle(history, specs[0])
      case Some(m) =>
        var r := Replay(history + [m], specs[1..], oracle);
        assert r[..|history|] == r[..|history| + 1][..|history|];
        r
      case None => Replay(history, specs[1..], oracle)
  }

  /** The oracle replays `history` faithfully: each move, requested after
      the ones before it, yields the same record. */
  predicate Reproduces(oracle: Oracle, history: seq<Move>) {
    forall i :: 0 <= i < |history| ==> oracle(history[..i], Spec(history[i])) == Some(history[i])
  }

  lemma {:induction false} ReplayReproduces(history: seq<Move>, k: nat, oracle: Oracle)
    requires k <= |history|
    requires Reproduces(oracle, history)
    ensures Replay(history[..k], seq(|history| - k, i requires 0 <= i < |history| - k => Spec(history[k + i])), oracle) == history
    decreases |history| - k
  {
    var specs := seq(|history| - k, i requires 0 <= i < |history| - k => Spec(history[k + i]));
    if k == |history| {
      assert history[..k] == history;
    } else {
      assert specs[0] == Spec(history[k]);
      assert history[..k] + [history[k]] == history[..k + 1];
      assert specs[1..] == seq(|history| - (k + 1), i requires 0 <= i < |history| - (k + 1) => Spec(history[k + 1 + i]));
      ReplayReproduces(history, k + 1, oracle);
    }
  }

  /** The UI state a link carries. */
  datatype Session = Session(cursor: Cursor, series: string, includeTranspositions: bool, color: Color)

  /** The decoded link object; a field the object lacks is `None`. */
  datatype SharedState = SharedState(
    moves: Option<string>,
    position: Option<int>,
    series: Option<string>,
    includeTranspositions: Option<string>,
    playerColor: Option<string>)

  function ColorCode(c: Color): string {
    match c
    case White => "w"
    case Black => "b"
  }

  function FlagText(b: bool): string {
    if b then "true" else "false"
  }

  /** `shareGame`: every field is written. */
  function ShareSession(s: Session): (g: SharedState)
    ensures g.moves.Some? && g.series.Some? && g.includeTranspositions.Some? && g.playerColor.Some?
    ensures g.position == Some(s.cursor.pos)
    ensures Given(g.series) <==> s.series != ""
    ensures g.includeTranspositions.value in {"true", "false"} && (g.includeTranspositions.value == "true" <==> s.includeTranspositions)
    ensures g.playerColor.value in {"w", "b"} && (g.playerColor.value == "w" <==> s.color == White)
  {
    SharedState(
      Some(EncodeMoves(s.cursor.moves)),
      Some(s.cursor.pos),
      Some(s.series),
      Some(FlagText(s.includeTranspositions)),
      Some(ColorCode(s.color)))
  }

  /** A field is used only when present and non-empty (JavaScript truthiness). */
  predicate Given(f: Option<string>) {
    f.Some? && f.value != ""
  }

  /** The settings part of `loadGameFromUrl`, and the replayed history with
      the cursor on its last move. */
  function LoadSettings(current: Session, g: SharedState, series: map<string, set<int>>, oracle: Oracle): (s: Session)
    ensures Valid(s.cursor) && s.cursor.pos == |s.cursor.moves| - 1
    ensures !Given(g.moves) ==> s.cursor.moves == []
    ensures Given(g.moves) ==> s.cursor.moves == Replay([], DecodeMoves(g.moves.value), oracle)
    ensures Given(g.moves) ==> |s.cursor.moves| <= |DecodeMoves(g.moves.value)|
    ensures s.series == ChooseSeries(series, current.series, g.series)
    ensures current.series in series ==> s.series in series
    ensures Given(g.includeTranspositions) && g.includeTranspositions.value in {"true", "false"} ==>
              (s.includeTranspositions <==> g.includeTranspositions.value == "true")
    ensures !(Given(g.includeTranspositions) && g.includeTranspositions.value in {"true", "false"}) ==>
              s.includeTranspositions == current.includeTranspositions
    ensures Given(g.playerColor) ==> (s.color == White <==> g.playerColor.value == "w")
    ensures !Given(g.playerColor) ==> s.color == current.color
  {
    var flag :=
      if Given(g.includeTranspositions) && g.includeTranspositions.value in {"true", "false"}
      then g.includeTranspositions.value == "true"
      else current.includeTranspositions;
    var color :=
      if Given(g.playerColor) then (if g.playerColor.value == "w" then White else Black)
      else current.color;
    var moves := if Given(g.moves) then Replay([], DecodeMoves(g.moves.value), oracle) else [];
    Session(Cursor(moves, |moves| - 1), ChooseSeries(series, current.series, g.series), flag, color)
  }

  /** `loadGameFromUrl` as the source writes it: the recorded position is
      taken as it is, without checking it against the replayed history. */
  function LoadSharedAsWritten(current: Session, g: SharedState, series: map<string, set<int>>, oracle: Oracle): (s: Session)
    ensures g.position.Some? ==> s.cursor.pos == g.position.value
  {
    var s := LoadSettings(current, g, series, oracle);
    if g.position.Some? then s.(cursor := s.cursor.(pos := g.position.value)) else s
  }

  /** `loadGameFromUrl` as evidently intended: a recorded position outside
      the replayed history is ignored and the cursor stays on the last move. */
  function LoadShared(current: Session, g: SharedState, series: map<string, set<int>>, oracle: Oracle): (s: Session)
    ensures Valid(s.cursor)
    ensures current.series in series ==> s.series in series
    ensures g.position.Some? && -1 <= g.position.value < |s.cursor.moves| ==> s.cursor.pos == g.position.value
  {
    var s := LoadSettings(current, g, series, oracle);
    if g.position.Some? && -1 <= g.position.value <= |s.cursor.moves| - 1
    then s.(cursor := s.cursor.(pos := g.position.value))
    else s
  }

  /** The two versions differ only on positions the history cannot hold. */
  lemma LoadSharedAgreesOnValidPositions(current: Session, g: SharedState, series: map<string, set<int>>, oracle: Oracle)
    requires Valid(LoadSharedAsWritten(current, g, series, oracle).cursor)
    ensures LoadShared(current, g, series, oracle) == LoadSharedAsWritten(current, g, series, oracle)
  {
  }

  /** Replaying the move string of a history gives the history back. */
  lemma ReplayEncoded(h: seq<Move>, oracle: Oracle)
    requires forall i :: 0 <= i < |h| ==> Shareable(h[i])
    requires Reproduces(oracle, h)
    ensures (if Given(Some(EncodeMoves(h))) then Replay([], DecodeMoves(EncodeMoves(h)), oracle) else []) == h
  {
    if |h| == 0 {
      assert EncodeMoves(h) == "";
    } else {
      DecodeEncodeMoves(h);
      ReplayReproduces(h, 0, oracle);
      assert h[..0] == [];
      assert seq(|h| - 0, i requires 0 <= i < |h| - 0 => Spec(h[0 + i])) == seq(|h|, i requires 0 <= i < |h| => Spec(h[i]));
      assert DecodeMoves(EncodeMoves(h)) != [];
    }
  }

  /** A session survives the round trip through its link, given that the
      rules oracle replays its moves as they were played. */
  lemma ShareRoundTrip(current: Session, s: Session, series: map<string, set<int>>, oracle: Oracle)
    requires Valid(s.cursor)
    requires forall i :: 0 <= i < |s.cursor.moves| ==> Shareable(s.cursor.moves[i])
    requires Reproduces(oracle, s.cursor.moves)
    requires s.series != "" && s.series in series
    ensures LoadShared(current, ShareSession(s), series, oracle) == s
  {
    var g := ShareSession(s);
    ReplayEncoded(s.cursor.moves, oracle);
    var settings := LoadSettings(current, g, series, oracle);
    assert settings.cursor.moves == s.cursor.moves;
    assert settings.series == s.series;
    assert settings.includeTranspositions == s.includeTranspositions;
    assert settings.color == s.color;
  }

  /** The moves the chess library has applied when `loadGameFromUrl`
      finishes, as written: every replayed move, whatever position the link
      recorded. The board (`board.position(chess.fen())`) and the
      transposition key of `onPositionChange` are read from this position. */
  function RestoredBoardAsWritten(current: Session, g: SharedState, series: map<string, set<int>>, oracle: Oracle): (played: seq<Move>)
    ensures played == LoadSharedAsWritten(current, g, series, oracle).cursor.moves
  {
    LoadSettings(current, g, series, oracle).cursor.moves
  }

  /** As evidently intended: the library is replayed up to the restored
      cursor, as `goToMove` does, so the board shows the cursor's position. */
  function RestoredBoard(current: Session, g: SharedState, series: map<string, set<int>>, oracle: Oracle): (played: seq<Move>)
    ensures var s := LoadShared(current, g, series, oracle);
            |played| == s.cursor.pos + 1 && played <= s.cursor.moves
  {
    var s := LoadShared(current, g, series, oracle);
    s.cursor.moves[..s.cursor.pos + 1]
  }

  /** The corrected restore of a link shows the shared position: the moves
      up to the shared cursor, and no later ones. */
  lemma ShareRoundTripBoard(current: Session, s: Session, series: map<string, set<int>>, oracle: Oracle)
    requires Valid(s.cursor)
    requires forall i :: 0 <= i < |s.cursor.moves| ==> Shareable(s.cursor.moves[i])
    requires Reproduces(oracle, s.cursor.moves)
    requires s.series != "" && s.series in series
    ensures RestoredBoard(current, ShareSession(s), series, oracle) == s.cursor.moves[..s.cursor.pos + 1]
  {
    ShareRoundTrip(current, s, series, oracle);
  }

  /** As written, a link shared from behind the last move restores the
      cursor there but leaves the board, and the transposition lookup, on
      the last move of the history. */
  lemma SharedBoardStaysOnLastMove(current: Session, s: Session, series: map<string, set<int>>, oracle: Oracle)
    requires Valid(s.cursor) && s.cursor.pos < |s.cursor.moves| - 1
    requires forall i :: 0 <= i < |s.cursor.moves| ==> Shareable(s.cursor.moves[i])
    requires Reproduces(oracle, s.cursor.moves)
    requires s.series != "" && s.series in series
    ensures LoadSharedAsWritten(current, ShareSession(s), series, oracle).cursor == s.cursor
    ensures RestoredBoardAsWritten(current, ShareSession(s), series, oracle) == s.cursor.moves
    ensures RestoredBoardAsWritten(current, ShareSession(s), series, oracle) != RestoredBoard(current, ShareSession(s), series, oracle)
  {
    ShareRoundTrip(current, s, series, oracle);
    LoadSharedAgreesOnValidPositions(current, ShareSession(s), series, oracle);
  }

  /** An oracle that accepts every request as a quiet pawn move. */
  function AcceptAll(history: seq<Move>, spec: MoveSpec): Option<Move> {
    Some(Move(spec.from, spec.to, 'p', false, spec.promotion, ""))
  }

  /** A link with one move and position 5 leaves the source's cursor past
      the end of the history: the next-move button is enabled, yet the
      next-move action does nothing. */
  lemma UncheckedPositionEscapes(current: Session, series: map<string, set<int>>)
    ensures var s := LoadSharedAsWritten(current, SharedState(Some("e2e4"), Some(5), None, None, None), series, AcceptAll);
            && !Valid(s.cursor)
            && !Buttons(s.cursor).nextDisabled
            && GoToNext(s.cursor) == s.cursor
    ensures Valid(LoadShared(current, SharedState(Some("e2e4"), Some(5), None, None, None), series, AcceptAll).cursor)
  {
    var g := SharedState(Some("e2e4"), Some(5), None, None, None);
    assert Split("e2e4", ',') == ["e2e4"] by {
      assert IndexOf("e2e4", ',') == 4;
    }
    assert NonEmpty(["e2e4"]) == ["e2e4"];
    assert Substring("e2e4", 0, 2) == "e2" && Substring("e2e4", 2, 4) == "e4";
    assert DecodeMoves("e2e4") == [MoveSpec("e2", "e4", None)];
    assert |LoadSettings(current, g, series, AcceptAll).cursor.moves| == 1;
  }
}

=== FILE: text.dfy ===
/** String helpers shared by the front end and the data pipeline:
    JavaScript's `split`/`join`, ASCII case mapping and substring tests. */
module Text {

  /** Concatenates `parts` with `sep` between neighbours (`Array.prototype.join`). */
  function Join(parts: seq<string>, sep: char): (r: string)
    ensures |parts| == 0 ==> r == ""
    ensures |parts| >= 1 ==> |r| >= |parts[0]|
  {
    if |parts| == 0 then ""
    else if |parts| == 1 then parts[0]
    else parts[0] + [sep] + Join(parts[1..], sep)
  }

  /** Index of the first `sep` in `s`, or |s| when there is none. */
  function IndexOf(s: string, sep: char): (i: nat)
    ensures i <= |s|
    ensures i < |s| ==> s[i] == sep
    ensures forall k :: 0 <= k < i ==> s[k] != sep
  {
    if |s| == 0 then 0
    else if s[0] == sep then 0
    else 1 + IndexOf(s[1..], sep)
  }

  /** `String.prototype.split` with a one-character separator: always at
      least one piece, and the empty string splits into `[""]`. */
  function Split(s: string, sep: char): (r: seq<string>)
    ensures |r| >= 1
    ensures forall k :: 0 <= k < |r| ==> sep !in r[k]
    decreases |s|
  {
    var i := IndexOf(s, sep);
    if i == |s| then [s]
    else [s[..i]] + Split(s[i + 1..], sep)
  }

  /** Splitting undoes joining when no part contains the separator. */
  lemma {:induction false} SplitJoin(parts: seq<string>, sep: char)
    requires |parts| >= 1
    requires forall k :: 0 <= k < |parts| ==> sep !in parts[k]
    ensures Split(Join(parts, sep), sep) == parts
    decreases |parts|
  {
    if |parts| == 1 {
      IndexOfAbsent(parts[0], sep);
    } else {
      var rest := parts[1..];
      assert forall k :: 0 <= k < |rest| ==> rest[k] == parts[k + 1];
      SplitCons(parts[0], Join(rest, sep), sep);
      SplitJoin(rest, sep);
      assert parts == [parts[0]] + rest;
    }
  }

  /** Splitting a string that starts with a separator-free piece and a
      separator yields that piece, then the split of the remainder. */
  lemma SplitCons(a: string, rest: string, sep: char)
    requires sep !in a
    ensures Split(a + [sep] + rest, sep) == [a] + Split(rest, sep)
  {
    var s := a + [sep] + rest;
    IndexOfPrefix(a, rest, sep);
    assert s[..|a|] == a;
    assert s[|a| + 1..] == rest;
  }

  lemma IndexOfAbsent(s: string, sep: char)
    requires sep !in s
    ensures IndexOf(s, sep) == |s|
  {
    assert forall k :: 0 <= k < |s| ==> s[k] in s;
  }

  lemma IndexOfPrefix(a: string, b: string, sep: char)
    requires sep !in a
    ensures IndexOf(a + [sep] + b, sep) == |a|
  {
    var s := a + [sep] + b;
    assert s[|a|] == sep;
    assert forall k :: 0 <= k < |a| ==> s[k] == a[k] && a[k] in a;
  }

  /** `String.prototype.toUpperCase` on one ASCII character. */
  function Upper(c: char): (u: char)
    ensures 'a' <= c <= 'z' ==> 'A' <= u <= 'Z' && u as int - c as int == 'A' as int - 'a' as int
    ensures !('a' <= c <= 'z') ==> u == c
  {
    if 'a' <= c <= 'z' then (c as int - 'a' as int + 'A' as int) as char else c
  }

  /** `String.prototype.toLowerCase` on one ASCII character. */
  function Lower(c: char): (l: char)
    ensures 'A' <= c <= 'Z' ==> 'a' <= l <= 'z' && c as int - l as int == 'A' as int - 'a' as int
    ensures !('A' <= c <= 'Z') ==> l == c
  {
    if 'A' <= c <= 'Z' then (c as int - 'A' as int + 'a' as int) as char else c
  }

  /** Lower-casing undoes upper-casing on lower-case letters. */
  lemma LowerUpper(c: char)
    requires 'a' <= c <= 'z'
    ensures Lower(Upper(c)) == c
  {
  }

  /** `String.prototype.substring(lo, hi)` for 0 <= lo <= hi: both ends
      are clamped to the string's length. */
  function Substring(s: string, lo: nat, hi: nat): (r: string)
    requires lo <= hi
    ensures |r| == (if hi <= |s| then hi else |s|) - (if lo <= |s| then lo else |s|)
    ensures forall k :: 0 <= k < |r| ==> r[k] == s[lo + k]
  {
    var a := if lo <= |s| then lo else |s|;
    var b := if hi <= |s| then hi else |s|;
    s[a..b]
  }
}
